=== FILE: README.md ===
# Chat backend message pipeline, in Dafny

This project models the message pipeline of a small Express/MongoDB/MinIO chat
backend:

- sending a message with up to 15 attached images;
- reading a conversation back with signed links to its files;
- deleting a user together with their messages;
- the Mongoose schema the records are validated against.

The stores are abstract in-memory values: the message collection, the file-metadata
collection, the object-store bucket and the user collection. They are the fields of
`Store.Database`. Each database write, object put and URL signing is handed the
outcome the real service would have had. The clock and the random bytes are handed
in the same way.

Modules, one per source file or shared component:

- `Types`: shared values, JavaScript truthiness (`caption || ''`), the error kinds and their HTTP status.
- `FileNaming`: the stored name `<millis>-<12 hex digits><extension>` that multer's `filename` callback builds, and its parser.
- `MessageModel`: the schema in models/messageModel.js, that is, the required strings, the required number, the defaulted date and strict-mode dropping of unknown paths.
- `Store`: the stores as a class whose methods are the database and object-store calls.
- `Ingest`: the per-file upload loop that both `/upload-message` handlers share. It is a method (`UploadFiles`) proved equal to a pure batch function (`Upload`), and the lemmas state the abort, order and no-rollback rules about that function.
- `Conversations`: the conversation query (filter and stable timestamp sort) and the two ways of signing file links.
- `ChatRoutes`, `ChatController`, `UserRoutes`: the handlers. The controller's `/upload-message` router is not exported (controller/chatController.js exports only `getUploadedContent`), so the shipped server never mounts it; `ChatController.UploadMessage` models it as written.
  - Each handler that writes is a method on the stores, proved equal to a specification function of the old stores.
  - The lemmas state the handler's rules about that function.

Every handler that touches the message collection is modelled with the message
schema it evidently intends:

- the two `/upload-message` handlers, which save a message;
- `/history`, `/uploaded-content` and `getUploadedContent`, which read messages;
- the cascade's `Message.deleteMany`, which deletes them.

The model reads and filters the stored messages as message records with `sender`,
`recipient`, `timestamp` and `files`. The schema as registered rejects every message;
see Findings.

## Model

| member | source | states |
|---|---|---|
| `Types.OrEmpty` | routes/chatRoutes.js:64 | the defaulted caption (`caption` or else `''`) is non-empty exactly when the caption is truthy, and is then the caption |
| `FileNaming.ExtName` | routes/chatRoutes.js:18 | the extension is empty or a single dot followed by no other dot and no `/`, and is a suffix of the original name |
| `FileNaming.ExtNameLastSegment` | routes/chatRoutes.js:18 | only the part after the last `/` decides the extension |
| `FileNaming.ExtNameOfDotted` | routes/chatRoutes.js:18 | a segment `b.e` with a non-empty `b` and no dot in `e` has the extension `.e`, unless it is `..` |
| `FileNaming.ExtNameNone` | routes/chatRoutes.js:18 | a segment with no dot, with its only dot in first place, or equal to `..` has an empty extension |
| `FileNaming.StoredNameFormat` | routes/chatRoutes.js:16-19 | a stored name reads back as exactly its staging time, its 6 random bytes (12 hex digits) and the original name's extension |
| `FileNaming.StoredNameIgnoresBaseName` | routes/chatRoutes.js:16-19 | two originals with the same extension get the same stored name at the same time and suffix; the base name plays no part |
| `MessageModel.Init` | models/messageModel.js:3-9 | the paths outside the schema are dropped, the schema's paths are kept with their values, and `uploadDate` defaults to the creation time |
| `MessageModel.MissingStringRejected` | models/messageModel.js:4-6 | a record whose `originalName`, `fileName` or `fileType` is missing, not a string or empty fails validation |
| `MessageModel.SizeMustBeNumber` | models/messageModel.js:7 | a record whose `size` is missing or not a number fails validation |
| `MessageModel.ValidIgnoresExtraPaths` | models/messageModel.js:3-9 | a path outside the schema changes nothing about validity |
| `MessageModel.MessageRecordRejected` | models/messageModel.js:11 | a message record, as the send handlers build it, loses every path and fails validation under the schema registered as 'File' |
| `MessageModel.NoMessageSavedAsRegistered` | models/messageModel.js:11 | `message.save()` never succeeds as registered; with a message schema it succeeds exactly when the write does |
| `Store.WithoutUser` | routes/userRoutes.js:50-55 | `deleteMany` with the `$or` filter keeps exactly the messages the user neither sent nor received, each as often as it was stored |
| `Store.WithoutUserKeepsOrder` | routes/userRoutes.js:50-55 | the delete keeps stored order: on a concatenation it filters each part in place |
| `Store.FindUser` | routes/userRoutes.js:39 | `findById` finds a user exactly when one with that id is stored |
| `Store.RemoveUser` | routes/userRoutes.js:58 | `findByIdAndDelete` keeps exactly the other users, each as often as stored, and the id is gone afterwards |
| `Store.Database.SaveFileRecord` | controller/chatController.js:63 | a metadata record is stored exactly when it validates and the write succeeds; nothing else changes |
| `Store.Database.PutObject` | routes/chatRoutes.js:49-51 | a successful put stores the object under its key with its content type; a failed one changes nothing |
| `Store.Database.SaveMessage` | routes/chatRoutes.js:69-70 | a successful save appends the message; a failed one changes nothing |
| `Store.Database.DeleteMessagesOf` | routes/userRoutes.js:50-55 | a successful `deleteMany` leaves exactly the messages not involving the user |
| `Store.Database.DeleteUser` | routes/userRoutes.js:58 | a successful delete removes the user's record and changes nothing else |
| `Ingest.MetadataRecordInit` | controller/chatController.js:55-61 | `new File(...)` keeps the metadata document as built: every path is in the schema and the date is given |
| `Ingest.MetadataRecordValid` | controller/chatController.js:55-63 | the metadata record supplies every required path, so it fails validation only when the original name, stored name or MIME type is empty |
| `Ingest.UploadFiles` | routes/chatRoutes.js:44-59 | the loop, run against the stores, leaves exactly the uploaded entries, stores and failure flag of the batch function |
| `Ingest.FailureSticks` | controller/chatController.js:85-88 | once a file has failed, the rest of the batch changes nothing |
| `Ingest.UploadKeepsOrder` | routes/chatRoutes.js:44-59 | the uploaded entries are a prefix of the files, in input order, each with its own signed URL, and every one succeeded; a failed batch failed on the next file |
| `Ingest.UploadSucceedsIff` | routes/chatRoutes.js:44-59 | a batch succeeds exactly when every step of every file succeeds |
| `Ingest.UploadStopsAt` | controller/chatController.js:85-88 | when file k is the first to fail, the batch fails with exactly the k files before it uploaded |
| `Ingest.UploadedNames` | routes/chatRoutes.js:66 | after a batch without failure the uploaded names are the stored names of all files, in input order |
| `Ingest.UploadKeepsWrites` | controller/chatController.js:63-71 | failed or not, earlier objects stay and every uploaded file's object is in the bucket; messages and users are untouched, and the routes' loop writes no metadata |
| `Ingest.UploadObjects` | routes/chatRoutes.js:49-51 | the loop adds bucket keys only under the batch's stored names, and every other object keeps its content type |
| `Ingest.UploadContentTypes` | routes/chatRoutes.js:49-51 | with distinct stored names, each uploaded file's object holds that file's MIME type |
| `Ingest.BatchFootprint` | routes/chatRoutes.js:44-59 | for a batch of client files, a key is added or overwritten only when it is one of the batch's stored names |
| `Ingest.BatchContentTypes` | routes/chatRoutes.js:44-59 | for a batch of client files with distinct stored names, each uploaded file's object holds its MIME type |
| `Ingest.ControllerAbortKeeps` | controller/chatController.js:85-88 | when file k is the first to fail, the controller's batch fails and keeps the first k records, in order, and their blobs |
| `Ingest.ControllerRecordCount` | controller/chatController.js:55-63 | the controller's loop keeps the earlier records and appends one per uploaded file, plus at most one for the failing file |
| `Ingest.ControllerRecordOrder` | controller/chatController.js:46-89 | the appended records begin with the uploaded files' records, in file order, after all earlier records |
| `Ingest.ControllerRecordsOnSuccess` | controller/chatController.js:46-89 | a batch without failure appends exactly one record per file, in file order |
| `Ingest.ObjectAfterRecord` | controller/chatController.js:55-71 | every blob the controller's loop newly puts has a metadata record written by the same batch |
| `Conversations.Between` | routes/chatRoutes.js:136-141 | the `$or` filter selects exactly the messages between the two users, each as often as it is stored |
| `Conversations.BetweenSymmetric` | routes/chatRoutes.js:136-141 | the filter is the same for (A, B) and (B, A) |
| `Conversations.Insert` | routes/chatRoutes.js:141 | inserting adds exactly the one message |
| `Conversations.InsertSorted` | routes/chatRoutes.js:141 | inserting into a sorted list keeps it sorted |
| `Conversations.SortByTimeSorted` | routes/chatRoutes.js:141 | the sort by timestamp yields the requested order |
| `Conversations.SortByTimePermutes` | controller/chatController.js:123 | the sort keeps every message as often as it occurs, orders them, and can sign its result exactly when its input can |
| `Conversations.ConversationExact` | routes/chatRoutes.js:136-141 | the conversation holds exactly the stored messages between the two users, each as often as stored, in ascending timestamp order |
| `Conversations.ConversationSymmetric` | routes/chatRoutes.js:136-141 | the conversation of (A, B) is the conversation of (B, A) |
| `Conversations.LenientLinksFaithful` | routes/chatRoutes.js:147-160 | one link per stored name, in order, and a URL is null exactly when that one name cannot be signed |
| `Conversations.StrictLinksAgree` | routes/chatRoutes.js:102-107 | strict signing succeeds exactly when every name can be signed, and then matches lenient signing |
| `Conversations.ContentEntriesExact` | routes/chatRoutes.js:100-117 | the strict listing succeeds exactly when every file of every message can be signed, and then has one entry per message, in order |
| `ChatRoutes.UploadMessage` | routes/chatRoutes.js:29-81 | the handler, run against the stores, answers and leaves the stores as `ChatRoutes.SendOutcome` of the old stores says |
| `ChatRoutes.MulterErrorRejected` | routes/chatRoutes.js:23-34 | a multer error (a staging failure, more than 15 `images` parts, or a file part under another field) answers 500 and leaves every store, the bucket included, unchanged |
| `ChatRoutes.MissingIdsRejected` | routes/chatRoutes.js:40-42 | a missing sender or recipient id answers 400 and writes nothing |
| `ChatRoutes.SendSucceedsIff` | routes/chatRoutes.js:29-81 | a send succeeds exactly when multer accepts the parts, both ids are given, every file is put and signed, and the message write succeeds |
| `ChatRoutes.SendStoresOrderedMessage` | routes/chatRoutes.js:61-75 | a successful send stores one message with the caption or '' and all stored names in input order; the response echoes the caption as given and the same names |
| `ChatRoutes.FailedSendStoresNoMessage` | routes/chatRoutes.js:76-78 | a failed send stores no message; it answers 400 only for missing ids and 500 otherwise |
| `ChatRoutes.SendPutsOnlyItsFiles` | routes/chatRoutes.js:44-51 | whatever the outcome, objects are added or overwritten only under the send's stored names; every other object keeps its content type |
| `ChatRoutes.SentObjectsTyped` | routes/chatRoutes.js:49-51 | after a successful send with distinct stored names, each file's object has the file's MIME type as its content type |
| `ChatRoutes.AsRegisteredNeverSends` | routes/chatRoutes.js:69-70 | with the schema as registered, no send succeeds |
| `ChatRoutes.HistoryExact` | routes/chatRoutes.js:128-182 | missing ids answer 400 and a failed query 500; otherwise one entry per message of the conversation, exactly those, in ascending timestamp order |
| `ChatRoutes.HistoryFileLinks` | routes/chatRoutes.js:147-160 | each history entry lists its message's files in stored order, with a null URL exactly for a file that could not be signed |
| `ChatRoutes.HistorySymmetric` | routes/chatRoutes.js:136-141 | under the same signing outcomes, the history of (A, B) is the history of (B, A) |
| `ChatRoutes.UploadedContentExact` | routes/chatRoutes.js:84-127 | a missing recipient answers 400; the caller and the recipient are the participants; it succeeds exactly when every file can be signed, and then lists the conversation in ascending order |
| `ChatRoutes.UploadedContentSigned` | routes/chatRoutes.js:102-107 | every URL in a successful answer is present and comes from the signer |
| `ChatRoutes.UploadedContentMatchesHistory` | routes/chatRoutes.js:100-117 | under the same signing outcomes, a successful `/uploaded-content` lists the same messages and links as `/history` for the same users, without the recipient |
| `ChatController.UploadMessage` | controller/chatController.js:28-118 | the handler, run against the stores, answers and leaves the stores as `ChatController.SendOutcome` of the old stores says |
| `ChatController.LimitRejected` | controller/chatController.js:30-31 | multer's unexpected-file error, that is, more than 15 `images` parts or a file part under any other field, answers 400 and writes nothing |
| `ChatController.MissingIdsRejected` | controller/chatController.js:42-44 | missing ids answer 400 before any metadata, blob or message is written |
| `ChatController.SendSucceedsIff` | controller/chatController.js:46-104 | a send succeeds exactly when every file's metadata is valid and saved, every blob is put and signed, and the message is saved |
| `ChatController.FirstFailureAborts` | controller/chatController.js:85-88 | the first failing file answers 500 with no message stored, while the earlier files' records and blobs stay |
| `ChatController.SendStoresMessage` | controller/chatController.js:91-112 | a successful send stores one message whose text is the caption or else '', which it also echoes; `files` is absent with no files and otherwise the stored names in order; every file has its record |
| `ChatController.FailedSendStoresNoMessage` | controller/chatController.js:30-115 | a failed send stores no message and removes no record or object; it answers 400 for an unexpected file part or missing ids and 500 otherwise |
| `ChatController.SendPutsOnlyItsFiles` | controller/chatController.js:46-71 | whatever the outcome, objects are added or overwritten only under the send's stored names; every other object keeps its content type |
| `ChatController.SentObjectsTyped` | controller/chatController.js:66-71 | after a successful send with distinct stored names, each file's object has the file's MIME type as its content type |
| `ChatController.NoBlobWithoutRecord` | controller/chatController.js:55-71 | every blob the handler newly puts, under a key not already in the bucket, has a metadata record saved by the same request |
| `ChatController.AsRegisteredNeverSends` | controller/chatController.js:103-104 | with the schema as registered, no send succeeds |
| `ChatController.GetUploadedContentExact` | controller/chatController.js:121-157 | it succeeds exactly when the query succeeds and every file can be signed; it then lists every stored message, as often as stored, newest first |
| `UserRoutes.ListUsersHidesPasswords` | routes/userRoutes.js:10-23 | every user in stored order with the same id and every field except the password, which no entry has; a failed query answers 500 |
| `UserRoutes.DeleteUser` | routes/userRoutes.js:26-73 | the handler, run against the stores, answers and leaves the stores as `UserRoutes.DeleteOutcome` of the old stores says |
| `UserRoutes.RejectedDeleteChangesNothing` | routes/userRoutes.js:31-47 | a malformed id answers 400 and an unknown user 404, and neither deletes anything |
| `UserRoutes.CascadeExact` | routes/userRoutes.js:50-63 | a delete succeeds exactly when the id is well formed, the user exists and every call succeeds; it then removes exactly the user's messages and the user, keeping every other message and user as often as stored and the messages in stored order |
| `UserRoutes.NoOrphanedMessages` | routes/userRoutes.js:50-58 | a user is only ever removed after all their messages; a failure keeps the user |

## Left out

- What the schema as registered does to the message reads and the cascade delete is not modelled. It depends on the Mongoose version, which the source does not pin. Under the 'File' schema, `sender`, `recipient` and `timestamp` are not schema paths. Where strictQuery strips such paths (the Mongoose 6 default), each `$or` branch becomes `{}`. Then `/history`, `/uploaded-content` and `getUploadedContent` would return every stored document, and the cascade's `deleteMany` would delete every one. Where the filter is kept, the queries behave as modelled.
- `Store.RemoveUser`: it removes every user with the id, while `findByIdAndDelete` removes one document. They agree because `_id` is unique, which `Db` does not state.
- Socket.IO broadcast and connection tracking in server.js: network fan-out, not message logic.
- Authentication (routes/authRoutes.js, controller/authController.js, the auth middleware): the caller's id is an input of `/uploaded-content`.
- routes/sendImageRoutes.js is not part of this model: it refers to names it never defines.
- models/fileModel.js is not part of this model. The model assumes that the `File` model it exports validates the controller's metadata records with the same five paths as the schema in models/messageModel.js. The model does not capture what happens if both modules register the name 'File'; Mongoose would then refuse the second registration when the routes load.
- Express wiring, request parsing and response bodies beyond the error kind and its HTTP status.
- multer's disk staging is not modelled, and the model does not track ./uploads. Staged files stay on disk once the handler body runs. On a multer error (an unexpected file part or a storage failure), multer removes the files it had already staged.
- When a staging failure and an unexpected file part both occur, the model answers with the unexpected part in the controller; in the real handler whichever error multer meets first wins.
- The real clock, the random bytes and the database-assigned message id are parameters.
- The MinIO signature format and the 24-hour expiry are not modelled: a signer map gives each signable key's URL, and a missing key stands for a throwing call. `Conversations.Lookup` is that oracle, not a modelled operation.
- Mongoose type casting is not modelled: the string '12' for a Number path, or a number for a String path, counts as the wrong kind.
- The message document's `_id` and `__v` are not modelled.
- Concurrency of `Promise.all` is not modelled: it is an order-preserving map, and the first failing signing is the one reported.
- `ChatRoutes.HistorySymmetric`, `ChatRoutes.UploadedContentMatchesHistory`: one `signer` stands for one set of signing outcomes, and these lemmas compare two requests under identical outcomes. Each real request calls `presignedUrl` again, so its URLs carry their own signing time and a signing failure in one request need not repeat in the other.
- Each `deleteMany` is all-or-nothing, and a request sees no writes from concurrent requests.
- `FileNaming.ExtName`: trailing slashes (`path.extname('a.b/')`) and Windows separators are not modelled.
- `UserRoutes.IsValidObjectId`: it accepts only 24 hexadecimal digits. `ObjectId.isValid` also accepts any 12-character string and ObjectId instances, which the model does not.
- Ids are compared as exact strings, so upper- and lower-case hex spellings of one ObjectId count as different users.
- `Conversations.SortByTime`: messages with equal timestamps keep stored order. MongoDB leaves their order unspecified.
- Collision freedom of stored names is not modelled. Two files staged in the same millisecond with the same random bytes and extension get the same key, and the second put overwrites the first object.
- `FileNaming.StoredNameIgnoresBaseName` follows from the definition of the stored name alone.

## Findings

| source | as written | input that shows it | evidently intended | confidence | as-written member | corrected member |
|---|---|---|---|---|---|---|
| models/messageModel.js:11 | the module exports `mongoose.model('File', fileSchema)`: the `Message` both send handlers save is the file-metadata schema | any send with both ids and every file uploaded; the record `{sender, recipient, message, timestamp, files}` loses every path in strict mode and lacks `originalName`, `fileName`, `fileType` and `size`, so `message.save()` rejects and the handler answers 500 'Error processing message' after the files were uploaded | a message schema with sender, recipient, message, timestamp and files, under which a send with every file uploaded and the write succeeding stores its message and answers 200 | high (not executed) | `ChatRoutes.AsRegisteredNeverSends` | `ChatRoutes.SendSucceedsIff` |

With `AsRegistered`, `MessageModel.MessageRecordRejected` shows that the record fails, and
`ChatRoutes.AsRegisteredNeverSends` and `ChatController.AsRegisteredNeverSends` show that
no send ever succeeds. With `AsIntended`, both handlers' `UploadMessage` methods store the
message, and `ChatRoutes.SendSucceedsIff` and `ChatController.SendSucceedsIff` state
exactly when.

=== FILE: chat_controller.dfy ===
/**
 * The handlers of controller/chatController.js: the stricter
 * `/upload-message` (a metadata record per file, an abort on the first
 * failing file, a 400 for an unexpected file part) and `getUploadedContent` (every
 * message, newest first, every file signed).
 */
module ChatController {
  import opened Types
  import MessageModel
  import opened Store
  import opened Ingest
  import opened Conversations

  /** The message the handler builds: `files` is set only when some file was uploaded. */
  function BuiltMessage(req: SendRequest, env: SendEnv, uploaded: seq<Uploaded>): Message
    requires Truthy(req.senderId) && Truthy(req.recipientId)
  {
    Message(env.messageId, req.senderId.value, req.recipientId.value, OrEmpty(req.caption), env.sentAt,
            if |uploaded| > 0 then Some(FileNames(uploaded)) else None)
  }

  /**
   * `/upload-message`: multer's unexpected-file error (more than 15 `images`
   * parts, or a file part under another field) answers 400 and any other
   * multer error 500; missing ids answer 400 before any store write; each file's
   * metadata is saved, its blob put and its URL signed, and the first
   * failure answers 500 at once; then the message is saved.
   */
  function SendOutcome(reg: MessageModel.Registration, db: Db, req: SendRequest, env: SendEnv): SendResult
    requires |env.files| == |req.files|
  {
    if UnexpectedFile(req.files) then SendResult(SendFailed(TooManyImages), db)
    else if !env.stagingOk then SendResult(SendFailed(ImagesRejected), db)
    else if !Truthy(req.senderId) || !Truthy(req.recipientId) then SendResult(SendFailed(MissingIds), db)
    else
      var p := Upload(Controller, StageAll(req.files, env.files), env.files, db);
      if p.failed then SendResult(SendFailed(UploadFailed), p.db)
      else
        var m := BuiltMessage(req, env, p.uploaded);
        if !MessageModel.MessageSaveOk(reg, m, env.sentAt, env.messageSaved) then SendResult(SendFailed(MessageFailed), p.db)
        else SendResult(Sent(Some(OrEmpty(req.caption)), p.uploaded), p.db.(messages := p.db.messages + [m]))
  }

  /** The handler run against the stores, with a message schema that accepts its records. */
  method UploadMessage(db: Database, req: SendRequest, env: SendEnv) returns (response: SendResponse)
    requires |env.files| == |req.files|
    modifies db
    ensures SendResult(response, db.Snapshot()) == SendOutcome(MessageModel.AsIntended, old(db.Snapshot()), req, env)
  {
    if UnexpectedFile(req.files) {
      return SendFailed(TooManyImages);
    }
    if !env.stagingOk {
      return SendFailed(ImagesRejected);
    }
    if !Truthy(req.senderId) || !Truthy(req.recipientId) {
      return SendFailed(MissingIds);
    }
    var uploaded, failed := UploadFiles(db, Controller, StageAll(req.files, env.files), env.files);
    if failed {
      return SendFailed(UploadFailed);
    }
    var files: Option<seq<Key>> := None;
    if |uploaded| > 0 {
      files := Some(FileNames(uploaded));
    }
    var m := Message(env.messageId, req.senderId.value, req.recipientId.value, OrEmpty(req.caption), env.sentAt, files);
    var saved := db.SaveMessage(m, env.messageSaved);
    if saved {
      response := Sent(Some(OrEmpty(req.caption)), uploaded);
    } else {
      response := SendFailed(MessageFailed);
    }
  }

  /**
   * More than 15 `images` parts, or a file part under any other field, answer
   * 400 'Cannot send more than 15 images at once', and nothing is written.
   */
  lemma LimitRejected(reg: MessageModel.Registration, db: Db, req: SendRequest, env: SendEnv)
    requires |env.files| == |req.files|
    requires UnexpectedFile(req.files)
    ensures var r := SendOutcome(reg, db, req, env);
      r.response == SendFailed(TooManyImages) && Status(r.response.error) == 400 && r.db == db
  {
  }

  /** Missing ids answer 400 before any metadata, blob or message is written. */
  lemma MissingIdsRejected(reg: MessageModel.Registration, db: Db, req: SendRequest, env: SendEnv)
    requires |env.files| == |req.files|
    requires !UnexpectedFile(req.files) && env.stagingOk
    requires !Truthy(req.senderId) || !Truthy(req.recipientId)
    ensures var r := SendOutcome(reg, db, req, env);
      r.response == SendFailed(MissingIds) && Status(r.response.error) == 400 && r.db == db
  {
  }

  /**
   * A send succeeds exactly when multer accepts the parts, both ids are
   * given, every file's metadata is valid and saved, every blob is put and
   * signed, and the message write succeeds.
   */
  lemma SendSucceedsIff(db: Db, req: SendRequest, env: SendEnv)
    requires |env.files| == |req.files|
    ensures var staged := StageAll(req.files, env.files);
      SendOutcome(MessageModel.AsIntended, db, req, env).response.Sent? <==>
        && env.stagingOk && !UnexpectedFile(req.files)
        && Truthy(req.senderId) && Truthy(req.recipientId)
        && (forall k :: 0 <= k < |req.files| ==> FileSucceeds(Controller, staged[k], env.files[k]))
        && env.messageSaved
  {
    UploadSucceedsIff(Controller, StageAll(req.files, env.files), env.files, db);
  }

  /**
   * When file `k` is the first to fail, the answer is 500 'Error uploading
   * files' and no message is stored, yet the metadata records of the files
   * before it stay in order after the earlier records, and their blobs stay
   * in the bucket.
   */
  lemma FirstFailureAborts(reg: MessageModel.Registration, db: Db, req: SendRequest, env: SendEnv, k: nat)
    requires |env.files| == |req.files|
    requires env.stagingOk && !UnexpectedFile(req.files) && Truthy(req.senderId) && Truthy(req.recipientId)
    requires k < |req.files|
    requires forall j :: 0 <= j < k ==> FileSucceeds(Controller, Stage(req.files[j], env.files[j]), env.files[j])
    requires !FileSucceeds(Controller, Stage(req.files[k], env.files[k]), env.files[k])
    ensures var r := SendOutcome(reg, db, req, env);
      var staged := StageAll(req.files, env.files);
      var n := |db.fileRecords|;
      && r.response == SendFailed(UploadFailed) && Status(r.response.error) == 500
      && r.db.messages == db.messages && r.db.users == db.users
      && n + k <= |r.db.fileRecords|
      && r.db.fileRecords[..n + k] == db.fileRecords + MetadataRecords(staged[..k], env.files[..k])
      && db.objects.Keys <= r.db.objects.Keys
      && (forall j :: 0 <= j < k ==> staged[j].fileName in r.db.objects)
  {
    var staged := StageAll(req.files, env.files);
    ControllerAbortKeeps(staged, env.files, db, k);
    assert SendOutcome(reg, db, req, env) == SendResult(SendFailed(UploadFailed), Upload(Controller, staged, env.files, db).db);
  }

  /**
   * A successful send stores one message whose text is `caption || ''`, the
   * caption it echoes, and whose `files` is absent for a send without files
   * and otherwise the stored names in input order; every file has its
   * metadata record and its blob, and the users are untouched.
   */
  lemma SendStoresMessage(db: Db, req: SendRequest, env: SendEnv)
    requires |env.files| == |req.files|
    ensures var r := SendOutcome(MessageModel.AsIntended, db, req, env);
      var staged := StageAll(req.files, env.files);
      r.response.Sent? ==>
        && req.senderId.Some? && req.recipientId.Some?
        && r.db.messages == db.messages + [Message(env.messageId, req.senderId.value, req.recipientId.value,
                                                   OrEmpty(req.caption), env.sentAt,
                                                   if req.files == [] then None else Some(StoredNames(req.files, env.files)))]
        && r.response.caption == Some(OrEmpty(req.caption))
        && FileNames(r.response.files) == StoredNames(req.files, env.files)
        && r.db.fileRecords == db.fileRecords + MetadataRecords(staged, env.files)
        && (forall j :: 0 <= j < |staged| ==> staged[j].fileName in r.db.objects)
        && r.db.users == db.users
  {
    var staged := StageAll(req.files, env.files);
    UploadedNames(Controller, req.files, env.files, db);
    UploadKeepsWrites(Controller, staged, env.files, db);
    ControllerRecordsOnSuccess(staged, env.files, db);
  }

  /**
   * A send that does not succeed stores no message; it answers 400 for an
   * unexpected file part or missing ids and 500 otherwise.
   */
  lemma FailedSendStoresNoMessage(reg: MessageModel.Registration, db: Db, req: SendRequest, env: SendEnv)
    requires |env.files| == |req.files|
    ensures var r := SendOutcome(reg, db, req, env);
      r.response.SendFailed? ==>
        && r.db.messages == db.messages && r.db.users == db.users
        && db.fileRecords <= r.db.fileRecords
        && db.objects.Keys <= r.db.objects.Keys
        && Status(r.response.error) == (if r.response.error in {TooManyImages, MissingIds} then 400 else 500)
  {
    var staged := StageAll(req.files, env.files);
    UploadKeepsWrites(Controller, staged, env.files, db);
    ControllerRecordCount(staged, env.files, db);
  }

  /**
   * Whatever its outcome, a send adds or overwrites objects only under its
   * own stored names, and every other object keeps its content type.
   */
  lemma SendPutsOnlyItsFiles(reg: MessageModel.Registration, db: Db, req: SendRequest, env: SendEnv)
    requires |env.files| == |req.files|
    ensures var r := SendOutcome(reg, db, req, env);
      var names := StoredNames(req.files, env.files);
      && (forall key :: key in r.db.objects ==> key in db.objects || key in names)
      && (forall key :: key in db.objects && key !in names ==> key in r.db.objects && r.db.objects[key] == db.objects[key])
  {
    BatchFootprint(Controller, req.files, env.files, db);
    var objects := SendOutcome(reg, db, req, env).db.objects;
    assert objects == db.objects || objects == Upload(Controller, StageAll(req.files, env.files), env.files, db).db.objects;
  }

  /**
   * After a successful send whose stored names are distinct, each file's
   * object is stored with the file's MIME type as its content type.
   */
  lemma SentObjectsTyped(db: Db, req: SendRequest, env: SendEnv)
    requires |env.files| == |req.files|
    requires forall i, j :: 0 <= i < j < |req.files| ==> StoredNames(req.files, env.files)[i] != StoredNames(req.files, env.files)[j]
    ensures var r := SendOutcome(MessageModel.AsIntended, db, req, env);
      var names := StoredNames(req.files, env.files);
      r.response.Sent? ==>
        forall k :: 0 <= k < |req.files| ==> names[k] in r.db.objects && r.db.objects[names[k]] == req.files[k].mimeType
  {
    BatchContentTypes(Controller, req.files, env.files, db);
    UploadKeepsOrder(Controller, StageAll(req.files, env.files), env.files, db);
  }

  /** A blob this handler puts under a key new to the bucket always has its metadata record, saved by the same request. */
  lemma NoBlobWithoutRecord(reg: MessageModel.Registration, db: Db, req: SendRequest, env: SendEnv)
    requires |env.files| == |req.files|
    ensures var r := SendOutcome(reg, db, req, env);
      forall key :: key in r.db.objects && key !in db.objects ==>
        exists j :: |db.fileRecords| <= j < |r.db.fileRecords| && Records(r.db.fileRecords[j], key)
  {
    ObjectAfterRecord(StageAll(req.files, env.files), env.files, db);
  }

  /**
   * With the schema the message model registers, no send ever succeeds: the
   * message record always fails validation, after the files were uploaded.
   */
  lemma AsRegisteredNeverSends(db: Db, req: SendRequest, env: SendEnv)
    requires |env.files| == |req.files|
    ensures SendOutcome(MessageModel.AsRegistered, db, req, env).response.SendFailed?
  {
    if !UnexpectedFile(req.files) && env.stagingOk && Truthy(req.senderId) && Truthy(req.recipientId) {
      var p := Upload(Controller, StageAll(req.files, env.files), env.files, db);
      var m := BuiltMessage(req, env, p.uploaded);
      MessageModel.NoMessageSavedAsRegistered(m, env.sentAt, env.messageSaved);
    }
  }

  /**
   * `getUploadedContent`: every stored message, newest first, each with all
   * its files signed; a failed query or any failed signing answers 500.
   */
  function GetUploadedContent(ms: seq<Message>, findOk: bool, signer: map<Key, Url>): Result<seq<ContentEntry>>
  {
    if !findOk then Fail(ContentFailed)
    else
      match ContentEntries(SortByTime(ms, Descending), signer)
      case None => Fail(ContentFailed)
      case Some(entries) => Ok(entries)
  }

  /**
   * `getUploadedContent` succeeds exactly when the query succeeds and every
   * file of every message can be signed; it then lists every stored message,
   * each as often as it is stored, in descending timestamp order.
   */
  lemma GetUploadedContentExact(ms: seq<Message>, findOk: bool, signer: map<Key, Url>)
    ensures var r := GetUploadedContent(ms, findOk, signer);
      var s := SortByTime(ms, Descending);
      && (r.Ok? <==> findOk && MessagesSignable(ms, signer))
      && (r.Fail? ==> r.error == ContentFailed && Status(r.error) == 500)
      && (r.Ok? ==>
            && |r.value| == |s| == |ms|
            && multiset(s) == multiset(ms)
            && (forall k :: 0 <= k < |s| ==> r.value[k] == ContentEntryOf(s[k], signer))
            && (forall i, j :: 0 <= i < j < |s| ==> r.value[i].timestamp >= r.value[j].timestamp))
  {
    SortByTimePermutes(ms, Descending, signer);
    ContentEntriesExact(SortByTime(ms, Descending), signer);
  }
}

=== FILE: chat_routes.dfy ===
/**
 * The handlers of routes/chatRoutes.js: `/upload-message` (upload every file,
 * then save one message), `/uploaded-content` and `/history` (the
 * conversation between two users with signed links to its files).
 */
module ChatRoutes {
  import opened Types
  import MessageModel
  import opened Store
  import opened Ingest
  import opened Conversations

  /**
   * `/upload-message`: a multer error (a staging failure, more than 15
   * `images` parts, or a file part under another field) answers 500;
   * missing ids answer 400 before any store write; then every file is put
   * and signed in order, and the message naming the uploaded files is
   * saved. Any exception after the ids check answers 500, and what was
   * already written stays written.
   */
  function SendOutcome(reg: MessageModel.Registration, db: Db, req: SendRequest, env: SendEnv): SendResult
    requires |env.files| == |req.files|
  {
    if !env.stagingOk || UnexpectedFile(req.files) then SendResult(SendFailed(ImagesRejected), db)
    else if !Truthy(req.senderId) || !Truthy(req.recipientId) then SendResult(SendFailed(MissingIds), db)
    else
      var p := Upload(Routes, StageAll(req.files, env.files), env.files, db);
      if p.failed then SendResult(SendFailed(MessageFailed), p.db)
      else
        var m := Message(env.messageId, req.senderId.value, req.recipientId.value, OrEmpty(req.caption),
                         env.sentAt, Some(FileNames(p.uploaded)));
        if !MessageModel.MessageSaveOk(reg, m, env.sentAt, env.messageSaved) then SendResult(SendFailed(MessageFailed), p.db)
        else SendResult(Sent(req.caption, p.uploaded), p.db.(messages := p.db.messages + [m]))
  }

  /** The handler run against the stores, with a message schema that accepts its records. */
  method UploadMessage(db: Database, req: SendRequest, env: SendEnv) returns (response: SendResponse)
    requires |env.files| == |req.files|
    modifies db
    ensures SendResult(response, db.Snapshot()) == SendOutcome(MessageModel.AsIntended, old(db.Snapshot()), req, env)
  {
    if !env.stagingOk || UnexpectedFile(req.files) {
      return SendFailed(ImagesRejected);
    }
    if !Truthy(req.senderId) || !Truthy(req.recipientId) {
      return SendFailed(MissingIds);
    }
    var uploaded, failed := UploadFiles(db, Routes, StageAll(req.files, env.files), env.files);
    if failed {
      return SendFailed(MessageFailed);
    }
    var m := Message(env.messageId, req.senderId.value, req.recipientId.value, OrEmpty(req.caption),
                     env.sentAt, Some(FileNames(uploaded)));
    var saved := db.SaveMessage(m, env.messageSaved);
    if saved {
      response := Sent(req.caption, uploaded);
    } else {
      response := SendFailed(MessageFailed);
    }
  }

  /**
   * A multer error (a staging failure, more than 15 `images` parts, or a
   * file part under another field) is answered 500 before the handler body
   * runs, and no store is touched: no object, no record, no message.
   */
  lemma MulterErrorRejected(reg: MessageModel.Registration, db: Db, req: SendRequest, env: SendEnv)
    requires |env.files| == |req.files|
    requires !env.stagingOk || UnexpectedFile(req.files)
    ensures var r := SendOutcome(reg, db, req, env);
      r.response == SendFailed(ImagesRejected) && Status(r.response.error) == 500 && r.db == db
  {
  }

  /** Missing ids are answered 400 once multer is done, and nothing is written. */
  lemma MissingIdsRejected(reg: MessageModel.Registration, db: Db, req: SendRequest, env: SendEnv)
    requires |env.files| == |req.files|
    requires env.stagingOk && !UnexpectedFile(req.files)
    requires !Truthy(req.senderId) || !Truthy(req.recipientId)
    ensures var r := SendOutcome(reg, db, req, env);
      r.response == SendFailed(MissingIds) && Status(r.response.error) == 400 && r.db == db
  {
  }

  /**
   * A send succeeds exactly when multer accepts the parts, both ids are
   * given, every file is put and signed, and the message write succeeds.
   */
  lemma SendSucceedsIff(db: Db, req: SendRequest, env: SendEnv)
    requires |env.files| == |req.files|
    ensures var staged := StageAll(req.files, env.files);
      SendOutcome(MessageModel.AsIntended, db, req, env).response.Sent? <==>
        && env.stagingOk && !UnexpectedFile(req.files)
        && Truthy(req.senderId) && Truthy(req.recipientId)
        && (forall k :: 0 <= k < |req.files| ==> FileSucceeds(Routes, staged[k], env.files[k]))
        && env.messageSaved
  {
    UploadSucceedsIff(Routes, StageAll(req.files, env.files), env.files, db);
  }

  /**
   * A successful send stores one message: from the sender to the recipient,
   * the caption or '' as its text, and the stored names of all its files in
   * input order; the response echoes the caption as given and lists the same
   * names. Every file's object is in the bucket, and the metadata records
   * and the users are unchanged.
   */
  lemma SendStoresOrderedMessage(db: Db, req: SendRequest, env: SendEnv)
    requires |env.files| == |req.files|
    ensures var r := SendOutcome(MessageModel.AsIntended, db, req, env);
      r.response.Sent? ==>
        && req.senderId.Some? && req.recipientId.Some?
        && r.db.messages == db.messages + [Message(env.messageId, req.senderId.value, req.recipientId.value,
                                                   OrEmpty(req.caption), env.sentAt, Some(StoredNames(req.files, env.files)))]
        && r.response.caption == req.caption
        && FileNames(r.response.files) == StoredNames(req.files, env.files)
        && (forall k :: 0 <= k < |req.files| ==> StoredNames(req.files, env.files)[k] in r.db.objects)
        && db.objects.Keys <= r.db.objects.Keys
        && r.db.fileRecords == db.fileRecords && r.db.users == db.users
  {
    var staged := StageAll(req.files, env.files);
    var p := Upload(Routes, staged, env.files, db);
    if SendOutcome(MessageModel.AsIntended, db, req, env).response.Sent? {
      UploadedNames(Routes, req.files, env.files, db);
      UploadKeepsOrder(Routes, staged, env.files, db);
      UploadKeepsWrites(Routes, staged, env.files, db);
      var m := Message(env.messageId, req.senderId.value, req.recipientId.value, OrEmpty(req.caption),
                       env.sentAt, Some(FileNames(p.uploaded)));
      assert SendOutcome(MessageModel.AsIntended, db, req, env) == SendResult(Sent(req.caption, p.uploaded), p.db.(messages := p.db.messages + [m]));
      forall k | 0 <= k < |req.files|
        ensures StoredNames(req.files, env.files)[k] in p.db.objects
      {
        assert staged[k].fileName == StoredNames(req.files, env.files)[k];
      }
    }
  }

  /**
   * A send that does not succeed stores no message and leaves the users and
   * metadata alone; it answers 400 only for missing ids and 500 otherwise.
   */
  lemma FailedSendStoresNoMessage(reg: MessageModel.Registration, db: Db, req: SendRequest, env: SendEnv)
    requires |env.files| == |req.files|
    ensures var r := SendOutcome(reg, db, req, env);
      r.response.SendFailed? ==>
        && r.db.messages == db.messages && r.db.users == db.users && r.db.fileRecords == db.fileRecords
        && db.objects.Keys <= r.db.objects.Keys
        && Status(r.response.error) == (if r.response.error == MissingIds then 400 else 500)
  {
    UploadKeepsWrites(Routes, StageAll(req.files, env.files), env.files, db);
  }

  /**
   * Whatever its outcome, a send adds or overwrites objects only under its
   * own stored names, and every other object keeps its content type.
   */
  lemma SendPutsOnlyItsFiles(reg: MessageModel.Registration, db: Db, req: SendRequest, env: SendEnv)
    requires |env.files| == |req.files|
    ensures var r := SendOutcome(reg, db, req, env);
      var names := StoredNames(req.files, env.files);
      && (forall key :: key in r.db.objects ==> key in db.objects || key in names)
      && (forall key :: key in db.objects && key !in names ==> key in r.db.objects && r.db.objects[key] == db.objects[key])
  {
    BatchFootprint(Routes, req.files, env.files, db);
    var objects := SendOutcome(reg, db, req, env).db.objects;
    assert objects == db.objects || objects == Upload(Routes, StageAll(req.files, env.files), env.files, db).db.objects;
  }

  /**
   * After a successful send whose stored names are distinct, each file's
   * object is stored with the file's MIME type as its content type.
   */
  lemma SentObjectsTyped(db: Db, req: SendRequest, env: SendEnv)
    requires |env.files| == |req.files|
    requires forall i, j :: 0 <= i < j < |req.files| ==> StoredNames(req.files, env.files)[i] != StoredNames(req.files, env.files)[j]
    ensures var r := SendOutcome(MessageModel.AsIntended, db, req, env);
      var names := StoredNames(req.files, env.files);
      r.response.Sent? ==>
        forall k :: 0 <= k < |req.files| ==> names[k] in r.db.objects && r.db.objects[names[k]] == req.files[k].mimeType
  {
    BatchContentTypes(Routes, req.files, env.files, db);
    UploadKeepsOrder(Routes, StageAll(req.files, env.files), env.files, db);
  }

  /**
   * With the schema the message model registers, no send ever succeeds: the
   * message record always fails validation, after the files were uploaded.
   */
  lemma AsRegisteredNeverSends(db: Db, req: SendRequest, env: SendEnv)
    requires |env.files| == |req.files|
    ensures SendOutcome(MessageModel.AsRegistered, db, req, env).response.SendFailed?
  {
    if env.stagingOk && !UnexpectedFile(req.files) && Truthy(req.senderId) && Truthy(req.recipientId) {
      var p := Upload(Routes, StageAll(req.files, env.files), env.files, db);
      var m := Message(env.messageId, req.senderId.value, req.recipientId.value, OrEmpty(req.caption),
                       env.sentAt, Some(FileNames(p.uploaded)));
      MessageModel.NoMessageSavedAsRegistered(m, env.sentAt, env.messageSaved);
    }
  }

  /**
   * `/history`: both ids are required (400); a failed query answers 500; a
   * failed signing only nulls that file's URL.
   */
  function History(ms: seq<Message>, senderId: Option<string>, recipientId: Option<string>, findOk: bool, signer: map<Key, Url>)
    : Result<seq<HistoryEntry>>
  {
    if !Truthy(senderId) || !Truthy(recipientId) then Fail(MissingIds)
    else if !findOk then Fail(HistoryFailed)
    else Ok(HistoryEntries(Conversation(ms, senderId.value, recipientId.value), signer))
  }

  /**
   * `/history` answers with one entry per stored message between the two
   * users, each as often as it is stored and none other, in ascending
   * timestamp order.
   */
  lemma HistoryExact(ms: seq<Message>, senderId: Option<string>, recipientId: Option<string>, findOk: bool, signer: map<Key, Url>)
    ensures var r := History(ms, senderId, recipientId, findOk, signer);
      && (!Truthy(senderId) || !Truthy(recipientId) ==> r == Fail(MissingIds) && Status(r.error) == 400)
      && (Truthy(senderId) && Truthy(recipientId) && !findOk ==> r == Fail(HistoryFailed) && Status(r.error) == 500)
      && (Truthy(senderId) && Truthy(recipientId) && findOk ==>
            var a, b := senderId.value, recipientId.value;
            var c := Conversation(ms, a, b);
            && r.Ok?
            && |r.value| == |c|
            && (forall k :: 0 <= k < |c| ==> r.value[k] == HistoryEntryOf(c[k], signer))
            && (forall i, j :: 0 <= i < j < |c| ==> r.value[i].timestamp <= r.value[j].timestamp)
            && (forall m :: m in c <==> m in ms && InConversation(m, a, b))
            && (forall m :: multiset(c)[m] == if InConversation(m, a, b) then multiset(ms)[m] else 0))
  {
    if Truthy(senderId) && Truthy(recipientId) && findOk {
      ConversationExact(ms, senderId.value, recipientId.value);
    }
  }

  /**
   * Each `/history` entry lists its message's files in stored order, and a
   * URL is null exactly when that one file could not be signed.
   */
  lemma HistoryFileLinks(ms: seq<Message>, senderId: Option<string>, recipientId: Option<string>, findOk: bool, signer: map<Key, Url>, k: nat)
    requires History(ms, senderId, recipientId, findOk, signer).Ok?
    requires k < |History(ms, senderId, recipientId, findOk, signer).value|
    ensures var c := Conversation(ms, senderId.value, recipientId.value);
      var names, links := FilesOf(c[k]), History(ms, senderId, recipientId, findOk, signer).value[k].files;
      && |links| == |names|
      && (forall j :: 0 <= j < |names| ==> links[j].fileName == names[j])
      && (forall j :: 0 <= j < |names| ==> (links[j].signedUrl.None? <==> names[j] !in signer))
  {
    var c := Conversation(ms, senderId.value, recipientId.value);
    LenientLinksFaithful(FilesOf(c[k]), signer);
  }

  /** Asking for the history of (A, B) or of (B, A) gives the same answer. */
  lemma HistorySymmetric(ms: seq<Message>, a: Option<string>, b: Option<string>, findOk: bool, signer: map<Key, Url>)
    ensures History(ms, a, b, findOk, signer) == History(ms, b, a, findOk, signer)
  {
    if Truthy(a) && Truthy(b) {
      ConversationSymmetric(ms, a.value, b.value);
    }
  }

  /**
   * `/uploaded-content`: the recipient is required (400), the caller's own id
   * is the other participant, and a failed query or any failed signing
   * answers 500.
   */
  function UploadedContent(ms: seq<Message>, userId: string, recipientId: Option<string>, findOk: bool, signer: map<Key, Url>)
    : Result<seq<ContentEntry>>
  {
    if !Truthy(recipientId) then Fail(MissingRecipient)
    else if !findOk then Fail(ContentFailed)
    else
      match ContentEntries(Conversation(ms, userId, recipientId.value), signer)
      case None => Fail(ContentFailed)
      case Some(entries) => Ok(entries)
  }

  /**
   * `/uploaded-content` succeeds exactly when the recipient is given, the
   * query succeeds and every file of the conversation can be signed; it then
   * has one entry per message of the conversation, in ascending timestamp
   * order, each with every one of its files signed.
   */
  lemma UploadedContentExact(ms: seq<Message>, userId: string, recipientId: Option<string>, findOk: bool, signer: map<Key, Url>)
    ensures var r := UploadedContent(ms, userId, recipientId, findOk, signer);
      && (!Truthy(recipientId) ==> r == Fail(MissingRecipient) && Status(r.error) == 400)
      && (Truthy(recipientId) ==>
            var c := Conversation(ms, userId, recipientId.value);
            && (r.Ok? <==> findOk && MessagesSignable(c, signer))
            && (r.Fail? ==> r.error == ContentFailed && Status(r.error) == 500)
            && (r.Ok? ==>
                  && |r.value| == |c|
                  && (forall k :: 0 <= k < |c| ==> r.value[k] == ContentEntryOf(c[k], signer))
                  && (forall i, j :: 0 <= i < j < |c| ==> r.value[i].timestamp <= r.value[j].timestamp)))
  {
    if Truthy(recipientId) {
      var c := Conversation(ms, userId, recipientId.value);
      ContentEntriesExact(c, signer);
      SortByTimeSorted(Between(ms, userId, recipientId.value), Ascending);
      var r := UploadedContent(ms, userId, recipientId, findOk, signer);
      if r.Ok? {
        assert r.value == ContentEntries(c, signer).value;
        forall i, j | 0 <= i < j < |c|
          ensures r.value[i].timestamp <= r.value[j].timestamp
        {
          assert r.value[i] == ContentEntryOf(c[i], signer) && r.value[j] == ContentEntryOf(c[j], signer);
          assert InOrder(c[i], c[j], Ascending);
        }
      }
    }
  }

  /** Every URL `/uploaded-content` answers with is present: a file that cannot be signed fails the request instead. */
  lemma UploadedContentSigned(ms: seq<Message>, userId: string, recipientId: Option<string>, findOk: bool, signer: map<Key, Url>, k: nat)
    requires UploadedContent(ms, userId, recipientId, findOk, signer).Ok?
    requires k < |UploadedContent(ms, userId, recipientId, findOk, signer).value|
    ensures var links := UploadedContent(ms, userId, recipientId, findOk, signer).value[k].files;
      forall j :: 0 <= j < |links| ==> links[j].signedUrl.Some? && links[j].signedUrl.value in signer.Values
  {
    var c := Conversation(ms, userId, recipientId.value);
    ContentEntriesExact(c, signer);
    assert c[k] in c;
    LenientLinksFaithful(FilesOf(c[k]), signer);
  }

  /**
   * Where both handlers answer for the same two users, `/uploaded-content`
   * lists the same messages as `/history`, in the same order, with the same
   * links, only without the recipient.
   */
  lemma UploadedContentMatchesHistory(ms: seq<Message>, userId: string, recipientId: Option<string>, signer: map<Key, Url>)
    requires userId != ""
    ensures var u := UploadedContent(ms, userId, recipientId, true, signer);
      var h := History(ms, Some(userId), recipientId, true, signer);
      u.Ok? ==> h.Ok? && |u.value| == |h.value| && forall k :: 0 <= k < |u.value| ==>
        var e := h.value[k];
        u.value[k] == ContentEntry(e.id, e.sender, e.text, e.timestamp, e.files)
  {
    if Truthy(recipientId) {
      ContentEntriesExact(Conversation(ms, userId, recipientId.value), signer);
    }
  }
}

=== FILE: conversation.dfy ===
/**
 * The read side shared by the history handlers: the conversation query
 * (`$or` of the two sender/recipient pairs, sorted by timestamp) and the
 * mapping of each message's stored file names to signed links.
 */
module Conversations {
  import opened Types

  /** `{ sender: a, recipient: b }` or `{ sender: b, recipient: a }` */
  predicate InConversation(m: Message, a: string, b: string)
  {
    (m.sender == a && m.recipient == b) || (m.sender == b && m.recipient == a)
  }

  /** The messages the `$or` filter selects, in stored order, each as often as it is stored. */
  function Between(ms: seq<Message>, a: string, b: string): (r: seq<Message>)
    ensures forall m :: m in r <==> m in ms && InConversation(m, a, b)
    ensures forall m :: multiset(r)[m] == if InConversation(m, a, b) then multiset(ms)[m] else 0
  {
    if ms == [] then []
    else
      assert ms == [ms[0]] + ms[1..];
      (if InConversation(ms[0], a, b) then [ms[0]] else []) + Between(ms[1..], a, b)
  }

  /** The filter does not tell the two participants apart. */
  lemma {:induction false} BetweenSymmetric(ms: seq<Message>, a: string, b: string)
    ensures Between(ms, a, b) == Between(ms, b, a)
  {
    if ms != [] {
      BetweenSymmetric(ms[1..], a, b);
    }
  }

  /** The two directions of `.sort({ timestamp: 1 })` and `.sort({ timestamp: -1 })`. */
  datatype Order = Ascending | Descending

  predicate InOrder(x: Message, y: Message, o: Order)
  {
    if o == Ascending then x.timestamp <= y.timestamp else x.timestamp >= y.timestamp
  }

  predicate Sorted(s: seq<Message>, o: Order)
  {
    forall i, j :: 0 <= i < j < |s| ==> InOrder(s[i], s[j], o)
  }

  /** Puts `m` before the first element it may precede, so it stays ahead of equal timestamps. */
  function Insert(m: Message, s: seq<Message>, o: Order): (r: seq<Message>)
    ensures multiset(r) == multiset(s) + multiset{m}
    ensures forall x :: x in r <==> x == m || x in s
  {
    if s == [] || InOrder(m, s[0], o) then [m] + s
    else
      assert s == [s[0]] + s[1..];
      [s[0]] + Insert(m, s[1..], o)
  }

  lemma {:induction false} InsertSorted(m: Message, s: seq<Message>, o: Order)
    requires Sorted(s, o)
    ensures Sorted(Insert(m, s, o), o)
  {
    if s != [] && !InOrder(m, s[0], o) {
      var t := s[1..];
      InsertSorted(m, t, o);
      var r := Insert(m, t, o);
      forall j | 0 <= j < |r|
        ensures InOrder(s[0], r[j], o)
      {
        if r[j] != m {
          assert r[j] in t;
          var k :| 0 <= k < |t| && t[k] == r[j];
          assert s[k + 1] == t[k];
        }
      }
    }
  }

  /** The query engine's sort by timestamp; ties keep stored order. */
  function SortByTime(s: seq<Message>, o: Order): (r: seq<Message>)
    ensures multiset(r) == multiset(s)
  {
    if s == [] then []
    else
      assert s == [s[0]] + s[1..];
      Insert(s[0], SortByTime(s[1..], o), o)
  }

  /** The sort's result is in the requested order. */
  lemma {:induction false} SortByTimeSorted(s: seq<Message>, o: Order)
    ensures Sorted(SortByTime(s, o), o)
  {
    if s != [] {
      SortByTimeSorted(s[1..], o);
      InsertSorted(s[0], SortByTime(s[1..], o), o);
    }
  }

  /** The sort keeps every message, as often as it occurs, and orders them; it signs what the input signs. */
  lemma SortByTimePermutes(s: seq<Message>, o: Order, signer: map<Key, Url>)
    ensures var r := SortByTime(s, o);
      && Sorted(r, o) && |r| == |s|
      && (forall m :: m in r <==> m in s)
      && (MessagesSignable(r, signer) <==> MessagesSignable(s, signer))
  {
    SortByTimeSorted(s, o);
    var r := SortByTime(s, o);
    assert |r| == |multiset(r)| == |multiset(s)| == |s|;
    forall m
      ensures m in r <==> m in s
    {
      assert m in r <==> m in multiset(r);
    }
  }

  /** The conversation between `a` and `b`, oldest first. */
  function Conversation(ms: seq<Message>, a: string, b: string): seq<Message>
  {
    SortByTime(Between(ms, a, b), Ascending)
  }

  /**
   * The conversation holds exactly the stored messages between the two
   * participants, each as often as it is stored, in ascending timestamp order.
   */
  lemma ConversationExact(ms: seq<Message>, a: string, b: string)
    ensures var c := Conversation(ms, a, b);
      && Sorted(c, Ascending)
      && (forall m :: m in c <==> m in ms && InConversation(m, a, b))
      && (forall m :: multiset(c)[m] == if InConversation(m, a, b) then multiset(ms)[m] else 0)
  {
    SortByTimeSorted(Between(ms, a, b), Ascending);
    var c := Conversation(ms, a, b);
    forall m
      ensures m in c <==> m in ms && InConversation(m, a, b)
    {
      assert m in c <==> m in multiset(c);
      assert m in Between(ms, a, b) <==> m in multiset(Between(ms, a, b));
    }
  }

  /** Asking for (a, b) or for (b, a) gives the same conversation. */
  lemma ConversationSymmetric(ms: seq<Message>, a: string, b: string)
    ensures Conversation(ms, a, b) == Conversation(ms, b, a)
  {
    BetweenSymmetric(ms, a, b);
  }

  /** `presignedUrl('GET', bucket, key, 24h)`: `None` when the call throws for that key. */
  function Lookup(signer: map<Key, Url>, k: Key): (u: Option<Url>)
    ensures u.Some? <==> k in signer
    ensures u.Some? ==> u.value == signer[k]
  {
    if k in signer then Some(signer[k]) else None
  }

  /** `{ fileName, signedUrl }`, where the URL is `null` when signing failed. */
  datatype FileLink = FileLink(fileName: Key, signedUrl: Option<Url>)

  /** The `/history` mapping: a failed signing becomes `signedUrl: null` for that file alone. */
  function LenientLinks(names: seq<Key>, signer: map<Key, Url>): seq<FileLink>
  {
    seq(|names|, k requires 0 <= k < |names| => FileLink(names[k], Lookup(signer, names[k])))
  }

  /** The `Promise.all` mapping without a catch: the first failed signing rejects the whole list. */
  function StrictLinks(names: seq<Key>, signer: map<Key, Url>): Option<seq<FileLink>>
  {
    if names == [] then Some([])
    else
      match Lookup(signer, names[0])
      case None => None
      case Some(url) =>
        match StrictLinks(names[1..], signer)
        case None => None
        case Some(rest) => Some([FileLink(names[0], Some(url))] + rest)
  }

  predicate AllSignable(names: seq<Key>, signer: map<Key, Url>)
  {
    forall k :: 0 <= k < |names| ==> names[k] in signer
  }

  /**
   * Strict signing succeeds exactly when every name can be signed, and then
   * gives the same links as lenient signing, none of them null.
   */
  lemma {:induction false} StrictLinksAgree(names: seq<Key>, signer: map<Key, Url>)
    ensures StrictLinks(names, signer).Some? <==> AllSignable(names, signer)
    ensures StrictLinks(names, signer).Some? ==> StrictLinks(names, signer).value == LenientLinks(names, signer)
  {
    if names != [] {
      StrictLinksAgree(names[1..], signer);
      if names[0] in signer && AllSignable(names[1..], signer) {
        assert AllSignable(names, signer) by {
          forall k | 0 <= k < |names|
            ensures names[k] in signer
          {
            if k > 0 {
              assert names[k] == names[1..][k - 1];
            }
          }
        }
        assert LenientLinks(names, signer) == [FileLink(names[0], Some(signer[names[0]]))] + LenientLinks(names[1..], signer);
      } else if names[0] in signer {
        assert !AllSignable(names, signer) by {
          var k :| 0 <= k < |names[1..]| && names[1..][k] !in signer;
          assert names[k + 1] !in signer;
        }
      }
    }
  }

  /**
   * Lenient signing keeps the stored names in order, one link per name, and a
   * link is null exactly when its own name cannot be signed.
   */
  lemma LenientLinksFaithful(names: seq<Key>, signer: map<Key, Url>)
    ensures var r := LenientLinks(names, signer);
      && |r| == |names|
      && (forall k :: 0 <= k < |r| ==> r[k].fileName == names[k])
      && (forall k :: 0 <= k < |r| ==> (r[k].signedUrl.None? <==> names[k] !in signer))
      && (forall k :: 0 <= k < |r| && r[k].signedUrl.Some? ==> r[k].signedUrl.value == signer[names[k]])
  {
  }

  /** An entry of `/uploaded-content` and of `getUploadedContent`. */
  datatype ContentEntry = ContentEntry(messageId: string, sender: string, text: string, timestamp: Millis, files: seq<FileLink>)

  /** The entry a message becomes once every one of its files is signed. */
  function ContentEntryOf(m: Message, signer: map<Key, Url>): ContentEntry
  {
    ContentEntry(m.id, m.sender, m.text, m.timestamp, LenientLinks(FilesOf(m), signer))
  }

  /** `Promise.all(messages.map(...))` with strict signing: `None` when any message's signing fails. */
  function ContentEntries(ms: seq<Message>, signer: map<Key, Url>): Option<seq<ContentEntry>>
  {
    if ms == [] then Some([])
    else
      match StrictLinks(FilesOf(ms[0]), signer)
      case None => None
      case Some(links) =>
        match ContentEntries(ms[1..], signer)
        case None => None
        case Some(rest) => Some([ContentEntry(ms[0].id, ms[0].sender, ms[0].text, ms[0].timestamp, links)] + rest)
  }

  /** Every file of every message can be signed. */
  predicate MessagesSignable(ms: seq<Message>, signer: map<Key, Url>)
  {
    forall m :: m in ms ==> AllSignable(FilesOf(m), signer)
  }

  /**
   * The content listing succeeds exactly when every file of every message can
   * be signed; it then has one entry per message, in order, carrying the
   * message's fields and its links in stored order.
   */
  lemma {:induction false} ContentEntriesExact(ms: seq<Message>, signer: map<Key, Url>)
    ensures var r := ContentEntries(ms, signer);
      && (r.Some? <==> MessagesSignable(ms, signer))
      && (r.Some? ==> |r.value| == |ms| && forall k :: 0 <= k < |ms| ==> r.value[k] == ContentEntryOf(ms[k], signer))
  {
    if ms != [] {
      ContentEntriesExact(ms[1..], signer);
      StrictLinksAgree(FilesOf(ms[0]), signer);
      assert ms == [ms[0]] + ms[1..];
      assert forall m :: m in ms <==> m == ms[0] || m in ms[1..];
    }
  }

  /** An entry of `/history`. */
  datatype HistoryEntry = HistoryEntry(id: string, sender: string, recipient: string, text: string, timestamp: Millis, files: seq<FileLink>)

  /** The entry a message becomes, with a null URL for each file that could not be signed. */
  function HistoryEntryOf(m: Message, signer: map<Key, Url>): HistoryEntry
  {
    HistoryEntry(m.id, m.sender, m.recipient, m.text, m.timestamp, LenientLinks(FilesOf(m), signer))
  }

  function HistoryEntries(ms: seq<Message>, signer: map<Key, Url>): seq<HistoryEntry>
  {
    seq(|ms|, k requires 0 <= k < |ms| => HistoryEntryOf(ms[k], signer))
  }
}

=== FILE: file_naming.dfy ===
/**
 * The name under which multer stages an upload and the object store keeps it:
 * the staging time in milliseconds, a dash, six random bytes in lower-case hex,
 * and the extension of the client's file name.
 */
module FileNaming {
  import opened Types

  /** The six bytes `crypto.randomBytes(6)` draws. */
  type Suffix = s: seq<bv8> | |s| == 6 witness [0, 0, 0, 0, 0, 0]

  predicate IsDigit(c: char)
  {
    '0' <= c <= '9'
  }

  predicate IsHexDigit(c: char)
  {
    '0' <= c <= '9' || 'a' <= c <= 'f'
  }

  function DigitChar(d: nat): (c: char)
    requires d < 10
    ensures IsDigit(c)
  {
    ('0' as int + d) as char
  }

  function DigitValue(c: char): (d: nat)
    ensures d < 10
  {
    if IsDigit(c) then c as int - '0' as int else 0
  }

  function HexChar(n: nat): (c: char)
    requires n < 16
    ensures IsHexDigit(c)
  {
    if n < 10 then ('0' as int + n) as char else ('a' as int + n - 10) as char
  }

  function HexValue(c: char): (n: nat)
    ensures n < 16
  {
    if '0' <= c <= '9' then c as int - '0' as int
    else if 'a' <= c <= 'f' then c as int - 'a' as int + 10
    else 0
  }

  /** A number as JavaScript prints it when it is concatenated to a string. */
  function Decimal(n: nat): (s: string)
    ensures |s| > 0
    ensures forall i :: 0 <= i < |s| ==> IsDigit(s[i])
    ensures |s| > 1 ==> s[0] != '0'
  {
    if n < 10 then [DigitChar(n)] else Decimal(n / 10) + [DigitChar(n % 10)]
  }

  function ParseDecimal(s: string): nat
  {
    if s == [] then 0 else ParseDecimal(s[..|s| - 1]) * 10 + DigitValue(s[|s| - 1])
  }

  lemma {:induction false} DecimalRoundTrip(n: nat)
    ensures ParseDecimal(Decimal(n)) == n
  {
    if n >= 10 {
      var s := Decimal(n);
      assert s[..|s| - 1] == Decimal(n / 10);
      DecimalRoundTrip(n / 10);
    }
  }

  /** `buffer.toString('hex')`: two lower-case hex digits per byte, high nibble first. */
  function Hex(bytes: seq<bv8>): (s: string)
    ensures |s| == 2 * |bytes|
    ensures forall i :: 0 <= i < |s| ==> IsHexDigit(s[i])
  {
    if bytes == [] then []
    else [HexChar(bytes[0] as nat / 16), HexChar(bytes[0] as nat % 16)] + Hex(bytes[1..])
  }

  /** The byte two hex digits spell, high nibble first. */
  function HexByte(hi: char, lo: char): bv8
  {
    (HexValue(hi) * 16 + HexValue(lo)) as bv8
  }

  function Unhex(s: string): seq<bv8>
    requires |s| % 2 == 0
  {
    if s == [] then [] else [HexByte(s[0], s[1])] + Unhex(s[2..])
  }

  lemma HexCharValue(n: nat)
    requires n < 16
    ensures HexValue(HexChar(n)) == n
  {
  }

  lemma ByteRoundTrip(b: bv8)
    ensures HexByte(HexChar(b as nat / 16), HexChar(b as nat % 16)) == b
  {
    var n := b as nat;
    NibblesOf(n);
    ByteOfNibbles(n / 16, n % 16);
  }

  lemma NibblesOf(n: nat)
    requires n < 256
    ensures n / 16 < 16 && (n / 16) * 16 + n % 16 == n
  {
  }

  lemma ByteOfNibbles(hi: nat, lo: nat)
    requires hi < 16 && lo < 16
    ensures HexByte(HexChar(hi), HexChar(lo)) == (hi * 16 + lo) as bv8
  {
    HexCharValue(hi);
    HexCharValue(lo);
  }

  lemma {:induction false} HexRoundTrip(bytes: seq<bv8>)
    ensures Unhex(Hex(bytes)) == bytes
  {
    if bytes != [] {
      var s := Hex(bytes);
      assert s[2..] == Hex(bytes[1..]);
      ByteRoundTrip(bytes[0]);
      HexRoundTrip(bytes[1..]);
    }
  }

  /** The position of the last `c` in `s`, or -1. */
  function LastIndexOf(s: string, c: char): (i: int)
    ensures -1 <= i < |s|
    ensures i >= 0 ==> s[i] == c
    ensures forall j :: i < j < |s| ==> s[j] != c
  {
    if s == [] then -1
    else if s[|s| - 1] == c then |s| - 1
    else LastIndexOf(s[..|s| - 1], c)
  }

  /** The position of the first `c` in `s`, or -1. */
  function IndexOf(s: string, c: char): (i: int)
    ensures -1 <= i < |s|
    ensures i >= 0 ==> s[i] == c
    ensures forall j :: 0 <= j < |s| && (i < 0 || j < i) ==> s[j] != c
  {
    if s == [] then -1
    else if s[0] == c then 0
    else var k := IndexOf(s[1..], c); if k < 0 then -1 else k + 1
  }

  /** The part of a path after its last `/`. */
  function LastSegment(name: string): (base: string)
    ensures '/' !in base
    ensures |base| <= |name| && base == name[|name| - |base|..]
  {
    var slash := LastIndexOf(name, '/');
    NoneAfter(name, '/', slash);
    name[slash + 1..]
  }

  /**
   * The extension of one path segment: from its last dot to the end, or empty
   * when the segment has no dot, starts with its only dot, or is `..`.
   */
  function SegmentExt(base: string): (ext: string)
    ensures ext == [] || (ext[0] == '.' && '.' !in ext[1..])
    ensures |ext| <= |base| && ext == base[|base| - |ext|..]
  {
    var dot := LastIndexOf(base, '.');
    if dot <= 0 || base == ".." then ""
    else
      NoneAfter(base, '.', dot);
      assert base[dot..][1..] == base[dot + 1..];
      base[dot..]
  }

  /** `path.extname` of a file name: the extension of its last segment. */
  function ExtName(name: string): (ext: string)
    ensures ext == [] || (ext[0] == '.' && '/' !in ext && '.' !in ext[1..])
    ensures |ext| <= |name| && ext == name[|name| - |ext|..]
  {
    var base := LastSegment(name);
    var ext := SegmentExt(base);
    assert '/' !in ext by {
      forall j | 0 <= j < |ext|
        ensures ext[j] != '/'
      {
        assert ext[j] == base[|base| - |ext| + j];
      }
    }
    ext
  }

  /** No `c` follows position `i` of `s`. */
  lemma NoneAfter(s: string, c: char, i: int)
    requires -1 <= i < |s|
    requires forall j :: i < j < |s| ==> s[j] != c
    ensures c !in s[i + 1..]
  {
    var t := s[i + 1..];
    forall j | 0 <= j < |t|
      ensures t[j] != c
    {
      assert t[j] == s[i + 1 + j];
    }
  }

  /** `LastIndexOf` finds a position that holds `c` with no `c` after it. */
  lemma {:induction false} LastIndexOfUnique(s: string, c: char, i: int)
    requires 0 <= i < |s| && s[i] == c
    requires forall j :: i < j < |s| ==> s[j] != c
    ensures LastIndexOf(s, c) == i
  {
    if s[|s| - 1] != c {
      LastIndexOfUnique(s[..|s| - 1], c, i);
    }
  }

  /** A name without `/` is its own last segment. */
  lemma SegmentOfPlain(b: string)
    requires '/' !in b
    ensures LastSegment(b) == b
  {
    assert LastIndexOf(b, '/') == -1;
    assert b[0..] == b;
  }

  /** Only the last path segment counts: whatever precedes the last `/` plays no part. */
  lemma ExtNameLastSegment(dir: string, b: string)
    requires '/' !in b
    ensures ExtName(dir + "/" + b) == ExtName(b)
  {
    var name := dir + "/" + b;
    assert LastIndexOf(name, '/') == |dir| by {
      assert name[|dir|] == '/';
      forall j | |dir| < j < |name|
        ensures name[j] != '/'
      {
        assert name[j] == b[j - |dir| - 1];
      }
      LastIndexOfUnique(name, '/', |dir|);
    }
    assert name[|dir| + 1..] == b;
    SegmentOfPlain(b);
  }

  /**
   * A segment with a dot after its first character has the extension from
   * its last dot on, except the segment `..`.
   */
  lemma ExtNameOfDotted(b: string, e: string)
    requires b != [] && '/' !in b && '/' !in e && '.' !in e
    requires b + "." + e != ".."
    ensures ExtName(b + "." + e) == "." + e
  {
    var name := b + "." + e;
    NoSlashInConcat(b, e);
    SegmentOfPlain(name);
    forall j | |b| < j < |name|
      ensures name[j] != '.'
    {
      assert name[j] == e[j - |b| - 1];
    }
    LastIndexOfUnique(name, '.', |b|);
    assert name[|b|..] == "." + e;
  }

  lemma NoSlashInConcat(b: string, e: string)
    requires '/' !in b && '/' !in e
    ensures '/' !in b + "." + e
  {
    var name := b + "." + e;
    forall j | 0 <= j < |name|
      ensures name[j] != '/'
    {
      if j < |b| { assert name[j] == b[j]; }
      else if j > |b| { assert name[j] == e[j - |b| - 1]; }
    }
  }

  /** A segment without a dot, with its only dot first, or equal to `..` has no extension. */
  lemma ExtNameNone(b: string)
    requires '/' !in b
    requires '.' !in b || (b[0] == '.' && '.' !in b[1..]) || b == ".."
    ensures ExtName(b) == ""
  {
    SegmentOfPlain(b);
    if b != ".." && '.' in b {
      forall j | 0 < j < |b|
        ensures b[j] != '.'
      {
        assert b[j] == b[1..][j - 1];
      }
      LastIndexOfUnique(b, '.', 0);
    }
  }

  /** The stored name multer's `filename` callback produces. */
  function StoredName(millis: Millis, suffix: Suffix, originalName: string): Key
  {
    Decimal(millis) + "-" + Hex(suffix) + ExtName(originalName)
  }

  /** The three parts a stored name is read back into. */
  datatype Parts = Parts(millis: Millis, suffix: seq<bv8>, extension: string)

  /** Reads a stored name back: digits up to the first dash, twelve hex digits, the rest. */
  function Parse(name: Key): Option<Parts>
  {
    var dash := IndexOf(name, '-');
    if dash <= 0 || |name| < dash + 13 then None
    else
      var digits, hex := name[..dash], name[dash + 1..dash + 13];
      if (forall i :: 0 <= i < |digits| ==> IsDigit(digits[i]))
         && (forall i :: 0 <= i < |hex| ==> IsHexDigit(hex[i]))
      then Some(Parts(ParseDecimal(digits), Unhex(hex), name[dash + 13..]))
      else None
  }

  /**
   * A stored name carries exactly the staging time, the random suffix and the
   * original name's extension, and can be read back into them.
   */
  lemma StoredNameFormat(millis: Millis, suffix: Suffix, originalName: string)
    ensures Parse(StoredName(millis, suffix, originalName))
            == Some(Parts(millis, suffix, ExtName(originalName)))
  {
    var d, h, e := Decimal(millis), Hex(suffix), ExtName(originalName);
    SplitAtDash(d, h, e);
    DecimalRoundTrip(millis);
    HexRoundTrip(suffix);
  }

  /** A name built from digits, a dash, twelve characters and a rest splits back at its first dash. */
  lemma SplitAtDash(d: string, h: string, e: string)
    requires |d| > 0 && forall i :: 0 <= i < |d| ==> IsDigit(d[i])
    requires |h| == 12
    ensures var name := d + "-" + h + e;
      && IndexOf(name, '-') == |d|
      && |name| >= |d| + 13
      && name[..|d|] == d && name[|d| + 1..|d| + 13] == h && name[|d| + 13..] == e
  {
    var name := d + "-" + h + e;
    assert name[|d|] == '-';
    assert forall j :: 0 <= j < |d| ==> name[j] == d[j];
    assert name[..|d|] == d;
    assert name[|d| + 1..|d| + 13] == h;
    assert name[|d| + 13..] == e;
  }

  /** Two uploads staged at the same time with the same suffix and extension get the same name, whatever their base names. */
  lemma StoredNameIgnoresBaseName(millis: Millis, suffix: Suffix, a: string, b: string)
    requires ExtName(a) == ExtName(b)
    ensures StoredName(millis, suffix, a) == StoredName(millis, suffix, b)
  {
  }
}

=== FILE: ingest.dfy ===
/**
 * The per-file upload loop of both `/upload-message` handlers: files are taken
 * in input order; for each, the controller's handler first saves a metadata
 * record, then both put the blob and sign a URL. The first failing step ends
 * the batch; nothing written for earlier files is rolled back.
 */
module Ingest {
  import opened Types
  import opened FileNaming
  import MessageModel
  import opened Store

  /** A file part as the client sends it, with the multipart field it was sent under. */
  datatype IncomingFile = IncomingFile(field: string, originalName: string, mimeType: string, size: nat)

  /** The only field `multer(...).array('images', 15)` takes files from. */
  const ImagesField: string := "images"

  /**
   * multer's `LIMIT_UNEXPECTED_FILE`: more file parts than the cap under
   * `images`, or a file part under any other field, whose allowance is 0.
   */
  predicate UnexpectedFile(parts: seq<IncomingFile>)
  {
    |parts| > MaxFiles || exists k :: 0 <= k < |parts| && parts[k].field != ImagesField
  }

  /**
   * What the environment decides for one file: the clock and random suffix at
   * staging, the clock and outcome of its metadata write, whether the put
   * succeeds, and the signed URL (or `None` when signing throws).
   */
  datatype FileEnv = FileEnv(
    stagedAt: Millis,
    suffix: Suffix,
    recordedAt: Millis,
    recordSaved: bool,
    putOk: bool,
    signed: Option<Url>)

  /** A file as multer hands it to the handler: `file.filename` is its stored name. */
  datatype StagedFile = StagedFile(originalName: string, mimeType: string, size: nat, fileName: Key)

  /** An entry of `uploadedFiles`: `{ fileName, minioUrl }`. */
  datatype Uploaded = Uploaded(fileName: Key, url: Url)

  /** Which of the two handlers runs the loop: only the controller's saves metadata. */
  datatype Variant = Routes | Controller

  /** The loop's state: the uploaded entries, the stores, and whether a step threw. */
  datatype Progress = Progress(uploaded: seq<Uploaded>, db: Db, failed: bool)

  function Stage(f: IncomingFile, e: FileEnv): StagedFile
  {
    StagedFile(f.originalName, f.mimeType, f.size, StoredName(e.stagedAt, e.suffix, f.originalName))
  }

  function StageAll(fs: seq<IncomingFile>, es: seq<FileEnv>): seq<StagedFile>
    requires |fs| == |es|
  {
    seq(|fs|, k requires 0 <= k < |fs| => Stage(fs[k], es[k]))
  }

  /** The stored names of a batch, in input order. */
  function StoredNames(fs: seq<IncomingFile>, es: seq<FileEnv>): seq<Key>
    requires |fs| == |es|
  {
    seq(|fs|, k requires 0 <= k < |fs| => StoredName(es[k].stagedAt, es[k].suffix, fs[k].originalName))
  }

  /** `uploadedFiles.map(file => file.fileName)` */
  function FileNames(us: seq<Uploaded>): seq<Key>
  {
    seq(|us|, k requires 0 <= k < |us| => us[k].fileName)
  }

  /** The metadata document the controller builds for a file and saves. */
  function MetadataRecord(f: StagedFile, at: Millis): MessageModel.Doc
  {
    map["originalName" := MessageModel.Str(f.originalName),
        "fileName" := MessageModel.Str(f.fileName),
        "fileType" := MessageModel.Str(f.mimeType),
        "size" := MessageModel.Num(f.size),
        "uploadDate" := MessageModel.Date(at)]
  }

  /**
   * `new File(...)` keeps the metadata document unchanged: every path is in
   * the schema and the upload date is given.
   */
  lemma MetadataRecordInit(f: StagedFile, at: Millis)
    ensures MessageModel.Init(MetadataRecord(f, at), at) == MetadataRecord(f, at)
  {
    assert MetadataRecord(f, at).Keys == MessageModel.SchemaPaths;
  }

  /** The three strings the schema requires are all non-empty. */
  predicate RecordAccepted(f: StagedFile)
  {
    f.originalName != "" && f.fileName != "" && f.mimeType != ""
  }

  /**
   * The metadata record supplies every path the schema requires, so its
   * validation fails only on an empty string: the client's file name or
   * MIME type (a stored name is never empty).
   */
  lemma MetadataRecordValid(f: StagedFile, at: Millis)
    ensures MessageModel.Valid(MetadataRecord(f, at)) <==> RecordAccepted(f)
  {
  }

  /** Every step of the loop succeeds for this file. */
  predicate FileSucceeds(v: Variant, f: StagedFile, e: FileEnv)
  {
    && (v == Controller ==> RecordAccepted(f) && e.recordSaved)
    && e.putOk
    && e.signed.Some?
  }

  /** One iteration of the loop on the file `f`. */
  function Step(v: Variant, p: Progress, f: StagedFile, e: FileEnv): Progress
  {
    var record := MetadataRecord(f, e.recordedAt);
    if v == Controller && !(RecordAccepted(f) && e.recordSaved) then p.(failed := true)
    else
      var db1 := if v == Controller then p.db.(fileRecords := p.db.fileRecords + [record]) else p.db;
      if !e.putOk then Progress(p.uploaded, db1, true)
      else
        var db2 := db1.(objects := db1.objects[f.fileName := f.mimeType]);
        if e.signed.None? then Progress(p.uploaded, db2, true)
        else Progress(p.uploaded + [Uploaded(f.fileName, e.signed.value)], db2, false)
  }

  /** The loop over a whole batch, from the stores `db`; it stops at the first failure. */
  function Upload(v: Variant, fs: seq<StagedFile>, es: seq<FileEnv>, db: Db): Progress
    requires |fs| == |es|
    decreases |fs|
  {
    if fs == [] then Progress([], db, false)
    else
      var n := |fs| - 1;
      var p := Upload(v, fs[..n], es[..n], db);
      if p.failed then p else Step(v, p, fs[n], es[n])
  }

  /** Once a prefix of the batch has failed, the rest of the batch changes nothing. */
  lemma {:induction false} FailureSticks(v: Variant, fs: seq<StagedFile>, es: seq<FileEnv>, db: Db, i: nat)
    requires |fs| == |es| && i <= |fs|
    requires Upload(v, fs[..i], es[..i], db).failed
    ensures Upload(v, fs, es, db) == Upload(v, fs[..i], es[..i], db)
    decreases |fs|
  {
    if i == |fs| {
      assert fs[..i] == fs && es[..i] == es;
    } else {
      var n := |fs| - 1;
      assert fs[..n][..i] == fs[..i] && es[..n][..i] == es[..i];
      FailureSticks(v, fs[..n], es[..n], db, i);
    }
  }

  /**
   * The batch uploads a prefix of its files, in input order: the uploaded
   * entries name those files with their signed URLs, every one of them
   * succeeded, and when the batch failed it failed on the next file.
   */
  lemma {:induction false} UploadKeepsOrder(v: Variant, fs: seq<StagedFile>, es: seq<FileEnv>, db: Db)
    requires |fs| == |es|
    ensures var p := Upload(v, fs, es, db);
      && |p.uploaded| <= |fs|
      && (forall k :: 0 <= k < |p.uploaded| ==>
            p.uploaded[k].fileName == fs[k].fileName && es[k].signed == Some(p.uploaded[k].url)
            && FileSucceeds(v, fs[k], es[k]))
      && (!p.failed ==> |p.uploaded| == |fs|)
      && (p.failed ==> |p.uploaded| < |fs| && !FileSucceeds(v, fs[|p.uploaded|], es[|p.uploaded|]))
    decreases |fs|
  {
    if fs != [] {
      var n := |fs| - 1;
      UploadKeepsOrder(v, fs[..n], es[..n], db);
    }
  }

  /** The batch succeeds exactly when every step of every file succeeds. */
  lemma UploadSucceedsIff(v: Variant, fs: seq<StagedFile>, es: seq<FileEnv>, db: Db)
    requires |fs| == |es|
    ensures !Upload(v, fs, es, db).failed <==> forall k :: 0 <= k < |fs| ==> FileSucceeds(v, fs[k], es[k])
  {
    UploadKeepsOrder(v, fs, es, db);
  }

  /** `rec` is the metadata record of the stored name `key`. */
  predicate Records(rec: MessageModel.Doc, key: Key)
  {
    "fileName" in rec && rec["fileName"] == MessageModel.Str(key)
  }

  /** One step keeps every write before it, and a file it uploads has its object in the bucket. */
  lemma StepKeepsWrites(v: Variant, q: Progress, f: StagedFile, e: FileEnv)
    ensures var p := Step(v, q, f, e);
      && p.db.messages == q.db.messages
      && p.db.users == q.db.users
      && q.db.objects.Keys <= p.db.objects.Keys
      && (p.uploaded == q.uploaded || (p.uploaded == q.uploaded + [Uploaded(f.fileName, e.signed.value)] && f.fileName in p.db.objects))
      && (v == Routes ==> p.db.fileRecords == q.db.fileRecords)
  {
  }

  /**
   * What the loop writes stays written, failed or not: earlier objects are
   * kept and every uploaded file's object is in the bucket. Messages and users
   * are not touched, and the routes' loop writes no metadata.
   */
  lemma {:induction false} UploadKeepsWrites(v: Variant, fs: seq<StagedFile>, es: seq<FileEnv>, db: Db)
    requires |fs| == |es|
    ensures var p := Upload(v, fs, es, db);
      && |p.uploaded| <= |fs|
      && p.db.messages == db.messages
      && p.db.users == db.users
      && db.objects.Keys <= p.db.objects.Keys
      && (forall k :: 0 <= k < |p.uploaded| ==> fs[k].fileName in p.db.objects)
      && (v == Routes ==> p.db.fileRecords == db.fileRecords)
    decreases |fs|
  {
    if fs != [] {
      var n := |fs| - 1;
      UploadKeepsWrites(v, fs[..n], es[..n], db);
      var q := Upload(v, fs[..n], es[..n], db);
      var p := Upload(v, fs, es, db);
      if !q.failed {
        UploadKeepsOrder(v, fs[..n], es[..n], db);
        StepKeepsWrites(v, q, fs[n], es[n]);
        forall k | 0 <= k < |p.uploaded|
          ensures fs[k].fileName in p.db.objects
        {
          if k < |q.uploaded| {
            assert fs[..n][k] == fs[k];
          } else {
            assert k == n;
          }
        }
      }
    }
  }

  /** The stored names of a batch. */
  function BatchNames(fs: seq<StagedFile>): set<Key>
  {
    set k | 0 <= k < |fs| :: fs[k].fileName
  }

  /** No two files of the batch share a stored name. */
  predicate DistinctNames(fs: seq<StagedFile>)
  {
    forall i, j :: 0 <= i < j < |fs| ==> fs[i].fileName != fs[j].fileName
  }

  lemma BatchNamesSnoc(fs: seq<StagedFile>)
    requires fs != []
    ensures BatchNames(fs) == BatchNames(fs[..|fs| - 1]) + {fs[|fs| - 1].fileName}
  {
    var n := |fs| - 1;
    forall key | key in BatchNames(fs)
      ensures key in BatchNames(fs[..n]) + {fs[n].fileName}
    {
      var k :| 0 <= k < |fs| && fs[k].fileName == key;
      if k < n {
        assert fs[..n][k] == fs[k];
      }
    }
  }

  /**
   * The loop puts nothing outside its batch: every key it adds is a stored
   * name of the batch, and every other object stays with its content type.
   */
  lemma {:induction false} UploadObjects(v: Variant, fs: seq<StagedFile>, es: seq<FileEnv>, db: Db)
    requires |fs| == |es|
    ensures var p := Upload(v, fs, es, db);
      && p.db.objects.Keys <= db.objects.Keys + BatchNames(fs)
      && (forall key :: key in db.objects && key !in BatchNames(fs) ==>
            key in p.db.objects && p.db.objects[key] == db.objects[key])
    decreases |fs|
  {
    if fs != [] {
      var n := |fs| - 1;
      UploadObjects(v, fs[..n], es[..n], db);
      BatchNamesSnoc(fs);
    }
  }

  /** When the stored names of a batch are distinct, each uploaded file's object holds that file's MIME type. */
  lemma {:induction false} UploadContentTypes(v: Variant, fs: seq<StagedFile>, es: seq<FileEnv>, db: Db)
    requires |fs| == |es|
    requires DistinctNames(fs)
    ensures var p := Upload(v, fs, es, db);
      && |p.uploaded| <= |fs|
      && forall k :: 0 <= k < |p.uploaded| ==>
           fs[k].fileName in p.db.objects && p.db.objects[fs[k].fileName] == fs[k].mimeType
    decreases |fs|
  {
    if fs != [] {
      var n := |fs| - 1;
      var q := Upload(v, fs[..n], es[..n], db);
      var p := Upload(v, fs, es, db);
      assert DistinctNames(fs[..n]);
      UploadContentTypes(v, fs[..n], es[..n], db);
      if !q.failed {
        UploadKeepsOrder(v, fs[..n], es[..n], db);
        assert p == Step(v, q, fs[n], es[n]);
        forall k | 0 <= k < |p.uploaded|
          ensures fs[k].fileName in p.db.objects && p.db.objects[fs[k].fileName] == fs[k].mimeType
        {
          if k < |q.uploaded| {
            assert fs[..n][k] == fs[k];
            assert fs[k].fileName != fs[n].fileName;
          } else {
            assert k == n;
          }
        }
      }
    }
  }

  /** One controller step appends at most its file's record, and appends it whenever it does not fail. */
  lemma ControllerStepRecords(p: Progress, f: StagedFile, e: FileEnv)
    ensures var r := MetadataRecord(f, e.recordedAt);
      var p' := Step(Controller, p, f, e);
      && (p'.failed ==> p'.uploaded == p.uploaded)
      && (!p'.failed ==> p'.uploaded == p.uploaded + [Uploaded(f.fileName, e.signed.value)])
      && (p'.db.fileRecords == p.db.fileRecords || p'.db.fileRecords == p.db.fileRecords + [r])
      && (!p'.failed ==> p'.db.fileRecords == p.db.fileRecords + [r])
  {
  }

  /**
   * The controller's loop keeps every earlier metadata record and appends one
   * per file it got past the metadata step: one per uploaded file, plus one
   * when the failing file failed after its record was saved.
   */
  lemma {:induction false} ControllerRecordCount(fs: seq<StagedFile>, es: seq<FileEnv>, db: Db)
    requires |fs| == |es|
    ensures var p := Upload(Controller, fs, es, db);
      && db.fileRecords <= p.db.fileRecords
      && |db.fileRecords| + |p.uploaded| <= |p.db.fileRecords| <= |db.fileRecords| + |p.uploaded| + 1
      && (!p.failed ==> |p.db.fileRecords| == |db.fileRecords| + |p.uploaded|)
    decreases |fs|
  {
    if fs != [] {
      var n := |fs| - 1;
      ControllerRecordCount(fs[..n], es[..n], db);
      var q := Upload(Controller, fs[..n], es[..n], db);
      if !q.failed {
        ControllerStepRecords(q, fs[n], es[n]);
      }
    }
  }

  /** The metadata records of a batch, in file order. */
  function MetadataRecords(fs: seq<StagedFile>, es: seq<FileEnv>): seq<MessageModel.Doc>
    requires |fs| == |es|
    decreases |fs|
  {
    if fs == [] then []
    else
      var n := |fs| - 1;
      MetadataRecords(fs[..n], es[..n]) + [MetadataRecord(fs[n], es[n].recordedAt)]
  }

  /**
   * The step case of ControllerRecordOrder, stated on two loop states alone:
   * `q` after all but the last file, `p` after the last.
   */
  lemma RecordOrderStep(fs: seq<StagedFile>, es: seq<FileEnv>, before: seq<MessageModel.Doc>, q: Progress, p: Progress)
    requires |fs| == |es| && fs != []
    requires p == if q.failed then q else Step(Controller, q, fs[|fs| - 1], es[|fs| - 1])
    requires |q.uploaded| <= |fs| - 1 && |before| + |q.uploaded| <= |q.db.fileRecords|
    requires q.db.fileRecords[..|before| + |q.uploaded|] == before + MetadataRecords(fs[..|q.uploaded|], es[..|q.uploaded|])
    requires !q.failed ==> |q.uploaded| == |fs| - 1 && |q.db.fileRecords| == |before| + |q.uploaded|
    ensures |p.uploaded| <= |fs| && |before| + |p.uploaded| <= |p.db.fileRecords|
    ensures p.db.fileRecords[..|before| + |p.uploaded|] == before + MetadataRecords(fs[..|p.uploaded|], es[..|p.uploaded|])
    ensures !p.failed ==> |p.uploaded| == |fs| && |p.db.fileRecords| == |before| + |p.uploaded|
  {
    var n, u := |fs| - 1, |q.uploaded|;
    if !q.failed {
      ControllerStepRecords(q, fs[n], es[n]);
      assert q.db.fileRecords[..|before| + u] == q.db.fileRecords;
      if p.failed {
        assert p.db.fileRecords[..|before| + u] == q.db.fileRecords;
      } else {
        assert fs[..n + 1] == fs && es[..n + 1] == es;
        assert fs[..n + 1][..n] == fs[..n] && es[..n + 1][..n] == es[..n];
        assert p.db.fileRecords[..|before| + u + 1] == p.db.fileRecords;
      }
    }
  }

  /**
   * The records the controller's loop appends are those of the uploaded
   * files, in file order, after every record that was there before.
   */
  lemma {:induction false} ControllerRecordOrder(fs: seq<StagedFile>, es: seq<FileEnv>, db: Db)
    requires |fs| == |es|
    ensures var p := Upload(Controller, fs, es, db);
      var u := |p.uploaded|;
      && u <= |fs|
      && |db.fileRecords| + u <= |p.db.fileRecords|
      && p.db.fileRecords[..|db.fileRecords| + u] == db.fileRecords + MetadataRecords(fs[..u], es[..u])
      && (!p.failed ==> u == |fs| && |p.db.fileRecords| == |db.fileRecords| + u)
    decreases |fs|
  {
    if fs == [] {
      assert Upload(Controller, fs, es, db).db.fileRecords == db.fileRecords;
    } else {
      var n := |fs| - 1;
      ControllerRecordOrder(fs[..n], es[..n], db);
      var q := Upload(Controller, fs[..n], es[..n], db);
      assert fs[..n][..|q.uploaded|] == fs[..|q.uploaded|] && es[..n][..|q.uploaded|] == es[..|q.uploaded|];
      RecordOrderStep(fs, es, db.fileRecords, q, Upload(Controller, fs, es, db));
    }
  }

  /** When `k` is the first file that does not succeed, the batch fails after uploading the `k` files before it. */
  lemma UploadStopsAt(v: Variant, fs: seq<StagedFile>, es: seq<FileEnv>, db: Db, k: nat)
    requires |fs| == |es| && k < |fs|
    requires forall j :: 0 <= j < k ==> FileSucceeds(v, fs[j], es[j])
    requires !FileSucceeds(v, fs[k], es[k])
    ensures Upload(v, fs, es, db).failed && |Upload(v, fs, es, db).uploaded| == k
  {
    UploadKeepsOrder(v, fs, es, db);
  }

  /**
   * When file `k` is the first to fail, the controller's batch fails, yet the
   * records of the `k` files before it stay in order after the earlier
   * records and their blobs stay in the bucket.
   */
  lemma ControllerAbortKeeps(fs: seq<StagedFile>, es: seq<FileEnv>, db: Db, k: nat)
    requires |fs| == |es| && k < |fs|
    requires forall j :: 0 <= j < k ==> FileSucceeds(Controller, fs[j], es[j])
    requires !FileSucceeds(Controller, fs[k], es[k])
    ensures var p := Upload(Controller, fs, es, db);
      var n := |db.fileRecords|;
      && p.failed
      && p.db.messages == db.messages && p.db.users == db.users
      && n + k <= |p.db.fileRecords|
      && p.db.fileRecords[..n + k] == db.fileRecords + MetadataRecords(fs[..k], es[..k])
      && db.objects.Keys <= p.db.objects.Keys
      && (forall j :: 0 <= j < k ==> fs[j].fileName in p.db.objects)
  {
    UploadStopsAt(Controller, fs, es, db, k);
    UploadKeepsWrites(Controller, fs, es, db);
    ControllerRecordOrder(fs, es, db);
  }

  /** A controller batch without failure leaves one metadata record per file, in file order, after the earlier ones. */
  lemma ControllerRecordsOnSuccess(fs: seq<StagedFile>, es: seq<FileEnv>, db: Db)
    requires |fs| == |es|
    ensures var p := Upload(Controller, fs, es, db);
      !p.failed ==> p.db.fileRecords == db.fileRecords + MetadataRecords(fs, es)
  {
    ControllerRecordOrder(fs, es, db);
    var p := Upload(Controller, fs, es, db);
    if !p.failed {
      assert fs[..|fs|] == fs && es[..|fs|] == es;
      assert p.db.fileRecords[..|db.fileRecords| + |fs|] == p.db.fileRecords;
    }
  }

  /**
   * In the controller's loop a blob reaches the bucket only after its
   * metadata record was saved: every key the batch newly put has a record
   * written by this batch.
   */
  lemma {:induction false} ObjectAfterRecord(fs: seq<StagedFile>, es: seq<FileEnv>, db: Db)
    requires |fs| == |es|
    ensures var p := Upload(Controller, fs, es, db);
      forall key :: key in p.db.objects && key !in db.objects ==>
        exists j :: |db.fileRecords| <= j < |p.db.fileRecords| && Records(p.db.fileRecords[j], key)
    decreases |fs|
  {
    if fs != [] {
      var n := |fs| - 1;
      var q := Upload(Controller, fs[..n], es[..n], db);
      var p := Upload(Controller, fs, es, db);
      ObjectAfterRecord(fs[..n], es[..n], db);
      ControllerRecordCount(fs[..n], es[..n], db);
      if !q.failed {
        var f, e := fs[n], es[n];
        forall key | key in p.db.objects && key !in db.objects
          ensures exists j :: |db.fileRecords| <= j < |p.db.fileRecords| && Records(p.db.fileRecords[j], key)
        {
          if key == f.fileName && key !in q.db.objects {
            var j := |q.db.fileRecords|;
            assert p.db.fileRecords[j] == MetadataRecord(f, e.recordedAt);
            assert Records(p.db.fileRecords[j], key);
          } else {
            var j :| |db.fileRecords| <= j < |q.db.fileRecords| && Records(q.db.fileRecords[j], key);
            assert p.db.fileRecords[j] == q.db.fileRecords[j];
          }
        }
      }
    }
  }

  /** The loop itself, run against the stores; it is the batch function `Upload`. */
  method UploadFiles(db: Database, v: Variant, fs: seq<StagedFile>, es: seq<FileEnv>)
    returns (uploaded: seq<Uploaded>, failed: bool)
    requires |fs| == |es|
    modifies db
    ensures Progress(uploaded, db.Snapshot(), failed) == Upload(v, fs, es, old(db.Snapshot()))
  {
    ghost var db0 := db.Snapshot();
    uploaded, failed := [], false;
    var i := 0;
    while i < |fs| && !failed
      invariant 0 <= i <= |fs|
      invariant Upload(v, fs[..i], es[..i], db0) == Progress(uploaded, db.Snapshot(), failed)
    {
      var f, e := fs[i], es[i];
      assert fs[..i + 1][..i] == fs[..i] && es[..i + 1][..i] == es[..i];
      if v == Controller {
        MetadataRecordInit(f, e.recordedAt);
        MetadataRecordValid(f, e.recordedAt);
        var saved := db.SaveFileRecord(MessageModel.Init(MetadataRecord(f, e.recordedAt), e.recordedAt), e.recordSaved);
        failed := !saved;
      }
      if !failed {
        var stored := db.PutObject(f.fileName, f.mimeType, e.putOk);
        if !stored || e.signed.None? {
          failed := true;
        } else {
          uploaded := uploaded + [Uploaded(f.fileName, e.signed.value)];
        }
      }
      i := i + 1;
    }
    if failed {
      FailureSticks(v, fs, es, db0, i);
    } else {
      assert fs[..i] == fs && es[..i] == es;
    }
  }
  /** The names the loop reports after a batch without failure are the batch's stored names, in order. */
  lemma UploadedNames(v: Variant, fs: seq<IncomingFile>, es: seq<FileEnv>, db: Db)
    requires |fs| == |es|
    ensures var p := Upload(v, StageAll(fs, es), es, db);
      !p.failed ==> FileNames(p.uploaded) == StoredNames(fs, es)
  {
    UploadKeepsOrder(v, StageAll(fs, es), es, db);
  }

  /**
   * The bucket after a batch of client files: a key is added or overwritten
   * only when it is one of the batch's stored names.
   */
  lemma BatchFootprint(v: Variant, fs: seq<IncomingFile>, es: seq<FileEnv>, db: Db)
    requires |fs| == |es|
    ensures var p := Upload(v, StageAll(fs, es), es, db);
      var names := StoredNames(fs, es);
      && (forall key :: key in p.db.objects ==> key in db.objects || key in names)
      && (forall key :: key in db.objects && key !in names ==> key in p.db.objects && p.db.objects[key] == db.objects[key])
  {
    var staged, names := StageAll(fs, es), StoredNames(fs, es);
    UploadObjects(v, staged, es, db);
    forall key | key in BatchNames(staged)
      ensures key in names
    {
      var k :| 0 <= k < |staged| && staged[k].fileName == key;
      assert names[k] == key;
    }
  }

  /** When a batch's stored names are distinct, each uploaded file's object holds that file's MIME type. */
  lemma BatchContentTypes(v: Variant, fs: seq<IncomingFile>, es: seq<FileEnv>, db: Db)
    requires |fs| == |es|
    requires forall i, j :: 0 <= i < j < |fs| ==> StoredNames(fs, es)[i] != StoredNames(fs, es)[j]
    ensures var p := Upload(v, StageAll(fs, es), es, db);
      var names := StoredNames(fs, es);
      && |p.uploaded| <= |fs|
      && forall k :: 0 <= k < |p.uploaded| ==> names[k] in p.db.objects && p.db.objects[names[k]] == fs[k].mimeType
  {
    var staged, names := StageAll(fs, es), StoredNames(fs, es);
    assert DistinctNames(staged) by {
      forall i, j | 0 <= i < j < |staged|
        ensures staged[i].fileName != staged[j].fileName
      {
        assert staged[i].fileName == names[i] && staged[j].fileName == names[j];
      }
    }
    UploadContentTypes(v, staged, es, db);
    var p := Upload(v, staged, es, db);
    assert |staged| == |fs|;
    forall k | 0 <= k < |p.uploaded|
      ensures names[k] in p.db.objects && p.db.objects[names[k]] == fs[k].mimeType
    {
      assert staged[k].fileName == names[k] && staged[k].mimeType == fs[k].mimeType;
    }
  }

  /** The multipart request: the three body fields and the file parts, in order. */
  datatype SendRequest = SendRequest(
    caption: Option<string>,
    senderId: Option<string>,
    recipientId: Option<string>,
    files: seq<IncomingFile>)

  /**
   * What the environment decides for one send: whether multer staged the parts
   * without error, each file's outcomes, the id the database gives the
   * message, the clock when it is built, and whether its write succeeds.
   */
  datatype SendEnv = SendEnv(
    stagingOk: bool,
    files: seq<FileEnv>,
    messageId: string,
    sentAt: Millis,
    messageSaved: bool)

  /** A send's answer: 200 with the echoed caption and the uploaded files, or an error. */
  datatype SendResponse = Sent(caption: Option<string>, files: seq<Uploaded>) | SendFailed(error: ErrorKind)

  /** A send's answer together with the stores it leaves. */
  datatype SendResult = SendResult(response: SendResponse, db: Db)
}

=== FILE: message_model.dfy ===
/**
 * The Mongoose schema of models/messageModel.js: an upload's metadata with
 * three required strings, a required number and a defaulted upload date.
 * The module registers this schema under the model name 'File', and that
 * model is what the chat routes save their message records with.
 */
module MessageModel {
  import opened Types

  /** The JavaScript values a document's paths hold. */
  datatype Value = Str(s: string) | Num(n: int) | Date(ms: int) | Null | List(items: seq<Value>)

  /** A document before or after `new Model(...)`: its paths and their values. */
  type Doc = map<string, Value>

  const SchemaPaths: set<string> := {"originalName", "fileName", "fileType", "size", "uploadDate"}

  /**
   * `new Model(doc)` at time `now`: paths outside the schema are dropped
   * (strict mode) and `uploadDate` takes `Date.now` when it is absent.
   */
  function Init(doc: Doc, now: Millis): (d: Doc)
    ensures d.Keys == (doc.Keys * SchemaPaths) + {"uploadDate"}
    ensures forall p :: p in doc && p in SchemaPaths ==> d[p] == doc[p]
    ensures "uploadDate" !in doc ==> d["uploadDate"] == Date(now)
  {
    var kept := map p | p in doc && p in SchemaPaths :: doc[p];
    if "uploadDate" in kept then kept else kept["uploadDate" := Date(now)]
  }

  /** A required String path: present, a string, and not empty. */
  predicate HasString(d: Doc, p: string)
  {
    p in d && d[p].Str? && d[p].s != ""
  }

  /** What `validate()` accepts for the file schema (casting between kinds is not modelled). */
  predicate Valid(d: Doc)
  {
    && HasString(d, "originalName")
    && HasString(d, "fileName")
    && HasString(d, "fileType")
    && "size" in d && d["size"].Num?
    && ("uploadDate" in d ==> d["uploadDate"].Date? || d["uploadDate"].Null?)
  }

  /** A document missing one of the three required strings, or with it empty, is rejected. */
  lemma MissingStringRejected(doc: Doc, now: Millis, p: string)
    requires p == "originalName" || p == "fileName" || p == "fileType"
    requires p !in doc || !doc[p].Str? || doc[p].s == ""
    ensures !Valid(Init(doc, now))
  {
  }

  /** A document whose size is missing or not a number is rejected. */
  lemma SizeMustBeNumber(doc: Doc, now: Millis)
    requires "size" !in doc || !doc["size"].Num?
    ensures !Valid(Init(doc, now))
  {
  }

  /** Validity looks only at the schema's paths: extra paths neither help nor hurt. */
  lemma ValidIgnoresExtraPaths(doc: Doc, now: Millis, p: string, v: Value)
    requires p !in SchemaPaths
    ensures Valid(Init(doc[p := v], now)) == Valid(Init(doc, now))
  {
    assert Init(doc[p := v], now) == Init(doc, now);
  }

  /** The document the send handlers build for a message, as they hand it to this model. */
  function MessageDoc(m: Message): Doc
  {
    var base := map["sender" := Str(m.sender), "recipient" := Str(m.recipient),
                    "message" := Str(m.text), "timestamp" := Date(m.timestamp)];
    if m.files.Some? then base["files" := List(seq(|m.files.value|, k requires 0 <= k < |m.files.value| => Str(m.files.value[k])))]
    else base
  }

  /**
   * Saving any message record through the 'File' model fails validation:
   * its paths are all dropped and the required ones are missing.
   */
  lemma MessageRecordRejected(m: Message, now: Millis)
    ensures Init(MessageDoc(m), now) == map["uploadDate" := Date(now)]
    ensures !Valid(Init(MessageDoc(m), now))
  {
    var d := MessageDoc(m);
    assert d.Keys * SchemaPaths == {} by {
      assert d.Keys <= {"sender", "recipient", "message", "timestamp", "files"};
    }
  }
  /**
   * The schema `message.save()` validates a message record against: the one
   * this module registers (under 'File'), or a message schema that accepts
   * every record the send handlers build.
   */
  datatype Registration = AsRegistered | AsIntended

  /** Whether `message.save()` succeeds for `m` created at `now`, given the outcome of the write itself. */
  predicate MessageSaveOk(reg: Registration, m: Message, now: Millis, writeOk: bool)
  {
    writeOk && (reg == AsIntended || Valid(Init(MessageDoc(m), now)))
  }

  /** As registered, no message record is ever saved. */
  lemma NoMessageSavedAsRegistered(m: Message, now: Millis, writeOk: bool)
    ensures !MessageSaveOk(AsRegistered, m, now, writeOk)
    ensures MessageSaveOk(AsIntended, m, now, writeOk) == writeOk
  {
    MessageRecordRejected(m, now);
  }
}

=== FILE: store.dfy ===
/**
 * The backend's shared state: the message collection, the file-metadata
 * collection, the object-store bucket and the user collection. Each write is
 * given the outcome the real database or object store would have had.
 */
module Store {
  import opened Types
  import MessageModel

  /** A snapshot of every store. `objects` maps a key to the content type it was put with. */
  datatype Db = Db(
    messages: seq<Message>,
    fileRecords: seq<MessageModel.Doc>,
    objects: map<Key, string>,
    users: seq<User>)

  /** `{ $or: [{ sender: id }, { recipient: id }] }` */
  predicate Involves(m: Message, id: string)
  {
    m.sender == id || m.recipient == id
  }

  /**
   * What `Message.deleteMany` with that filter leaves behind: every message not
   * involving the user, as often as it is stored, in stored order.
   */
  function WithoutUser(ms: seq<Message>, id: string): (r: seq<Message>)
    ensures forall m :: m in r <==> m in ms && !Involves(m, id)
    ensures forall m :: multiset(r)[m] == if Involves(m, id) then 0 else multiset(ms)[m]
    ensures |r| <= |ms|
  {
    if ms == [] then []
    else
      assert ms == [ms[0]] + ms[1..];
      if Involves(ms[0], id) then WithoutUser(ms[1..], id)
      else [ms[0]] + WithoutUser(ms[1..], id)
  }

  /**
   * The delete keeps stored order: filtering a concatenation filters each
   * part in place, so a kept message stays ahead of every kept message that
   * was stored after it.
   */
  lemma {:induction false} WithoutUserKeepsOrder(a: seq<Message>, b: seq<Message>, id: string)
    ensures WithoutUser(a + b, id) == WithoutUser(a, id) + WithoutUser(b, id)
  {
    if a == [] {
      assert a + b == b;
    } else {
      var c := a + b;
      assert c[0] == a[0];
      assert c[1..] == a[1..] + b;
      WithoutUserKeepsOrder(a[1..], b, id);
      var x, y := WithoutUser(a[1..], id), WithoutUser(b, id);
      assert WithoutUser(c[1..], id) == x + y;
      if Involves(a[0], id) {
        assert WithoutUser(c, id) == WithoutUser(c[1..], id);
      } else {
        assert WithoutUser(c, id) == [a[0]] + WithoutUser(c[1..], id);
        assert [a[0]] + (x + y) == ([a[0]] + x) + y;
      }
    }
  }

  predicate HasUser(users: seq<User>, id: string)
  {
    exists u :: u in users && u.id == id
  }

  /** `User.findById(id)`: the first user with that id, if any. */
  function FindUser(users: seq<User>, id: string): (r: Option<User>)
    ensures r.Some? <==> HasUser(users, id)
    ensures r.Some? ==> r.value in users && r.value.id == id
  {
    if users == [] then None
    else if users[0].id == id then Some(users[0])
    else FindUser(users[1..], id)
  }

  /**
   * What `User.findByIdAndDelete(id)` leaves behind, in stored order. The
   * call deletes one document; removing every user with the id is the same
   * thing because `_id` is unique in the collection, which `Db` takes for
   * granted rather than states.
   */
  function RemoveUser(users: seq<User>, id: string): (r: seq<User>)
    ensures forall u :: u in r <==> u in users && u.id != id
    ensures forall u :: multiset(r)[u] == if u.id == id then 0 else multiset(users)[u]
    ensures !HasUser(r, id)
  {
    if users == [] then []
    else
      assert users == [users[0]] + users[1..];
      if users[0].id == id then RemoveUser(users[1..], id)
      else [users[0]] + RemoveUser(users[1..], id)
  }

  class Database {
    var messages: seq<Message>
    var fileRecords: seq<MessageModel.Doc>
    var objects: map<Key, string>
    var users: seq<User>

    function Snapshot(): Db
      reads this
    {
      Db(messages, fileRecords, objects, users)
    }

    /** Stores holding a given snapshot; the handlers themselves are always given an existing `Database`. */
    constructor (init: Db)
      ensures Snapshot() == init
    {
      messages, fileRecords, objects, users := init.messages, init.fileRecords, init.objects, init.users;
    }

    /** `record.save()` on the 'File' model: validation first, then the write, which may fail. */
    method SaveFileRecord(record: MessageModel.Doc, writeOk: bool) returns (saved: bool)
      modifies this
      ensures saved == (MessageModel.Valid(record) && writeOk)
      ensures Snapshot() == if saved then old(Snapshot()).(fileRecords := old(fileRecords) + [record])
                            else old(Snapshot())
    {
      saved := MessageModel.Valid(record) && writeOk;
      if saved {
        fileRecords := fileRecords + [record];
      }
    }

    /** `fPutObject(bucket, key, path, { 'Content-Type': contentType })`, overwriting any earlier object. */
    method PutObject(key: Key, contentType: string, putOk: bool) returns (stored: bool)
      modifies this
      ensures stored == putOk
      ensures Snapshot() == if stored then old(Snapshot()).(objects := old(objects)[key := contentType])
                            else old(Snapshot())
    {
      stored := putOk;
      if stored {
        objects := objects[key := contentType];
      }
    }

    /** `message.save()` for the record a send handler built. */
    method SaveMessage(m: Message, writeOk: bool) returns (saved: bool)
      modifies this
      ensures saved == writeOk
      ensures Snapshot() == if saved then old(Snapshot()).(messages := old(messages) + [m])
                            else old(Snapshot())
    {
      saved := writeOk;
      if saved {
        messages := messages + [m];
      }
    }

    /** `Message.deleteMany` of every message the user sent or received. */
    method DeleteMessagesOf(id: string, deleteOk: bool) returns (deleted: bool)
      modifies this
      ensures deleted == deleteOk
      ensures Snapshot() == if deleted then old(Snapshot()).(messages := WithoutUser(old(messages), id))
                            else old(Snapshot())
    {
      deleted := deleteOk;
      if deleted {
        messages := WithoutUser(messages, id);
      }
    }

    /** `User.findByIdAndDelete(id)`. */
    method DeleteUser(id: string, deleteOk: bool) returns (deleted: bool)
      modifies this
      ensures deleted == deleteOk
      ensures Snapshot() == if deleted then old(Snapshot()).(users := RemoveUser(old(users), id))
                            else old(Snapshot())
    {
      deleted := deleteOk;
      if deleted {
        users := RemoveUser(users, id);
      }
    }
  }
}

=== FILE: types.dfy ===
/** Values shared by every part of the chat backend model. */
module Types {

  datatype Option<+T> = None | Some(value: T)

  /** A handler's answer when it does not succeed: the error it reports. */
  datatype Result<+T> = Ok(value: T) | Fail(error: ErrorKind)

  /** A reading of the millisecond clock, as `Date.now()` or `new Date()` give it. */
  type Millis = nat

  /** An object-store key; it is also the stored file name. */
  type Key = string

  type Url = string

  /** The attachment cap of `multer(...).array('images', 15)`. */
  const MaxFiles: nat := 15

  /** JavaScript truthiness of an optional request string: `undefined` and `''` are falsy. */
  predicate Truthy(p: Option<string>)
  {
    p.Some? && p.value != ""
  }

  /** `caption || ''`: the caption when it is truthy, the empty string otherwise. */
  function OrEmpty(p: Option<string>): (s: string)
    ensures s != "" <==> Truthy(p)
    ensures s != "" ==> p == Some(s)
  {
    if p.Some? then p.value else ""
  }

  /** The error responses of the handlers, one per distinct message they send. */
  datatype ErrorKind =
    | ImagesRejected     // 'Error processing images': multer failed
    | TooManyImages      // 'Cannot send more than 15 images at once': multer's LIMIT_UNEXPECTED_FILE
    | MissingIds         // 'Sender and recipient IDs are required.'
    | UploadFailed       // 'Error uploading files'
    | MessageFailed      // 'Error processing message'
    | MissingRecipient   // 'Recipient ID is required.'
    | ContentFailed      // 'Error fetching uploaded content'
    | HistoryFailed      // 'Error fetching chat history'
    | UsersFailed        // 'Error fetching users'
    | InvalidUserId      // 'Invalid user ID format'
    | UserNotFound       // 'User not found'
    | UserDeleteFailed   // 'Error deleting user'

  /** The HTTP status each error is answered with. */
  function Status(e: ErrorKind): nat
  {
    match e
    case TooManyImages | MissingIds | MissingRecipient | InvalidUserId => 400
    case UserNotFound => 404
    case _ => 500
  }

  /**
   * A stored chat message: the record the send handlers build.
   * `files` is absent when the record was built without a file list.
   */
  datatype Message = Message(
    id: string,
    sender: string,
    recipient: string,
    text: string,
    timestamp: Millis,
    files: Option<seq<Key>>)

  /** `message.files || []` */
  function FilesOf(m: Message): seq<Key>
  {
    if m.files.Some? then m.files.value else []
  }

  /** A user document: its id and its other fields by name (the password among them). */
  datatype User = User(id: string, fields: map<string, string>)
}

=== FILE: user_routes.dfy ===
/**
 * The handlers of routes/userRoutes.js: listing the users without their
 * password, and deleting a user together with every message they sent or
 * received.
 */
module UserRoutes {
  import opened Types
  import opened Store

  /** The field the listing projects away (`'-password'`). */
  const PasswordField: string := "password"

  /** A user as the listing shows it. */
  function WithoutPassword(u: User): User
  {
    User(u.id, u.fields - {PasswordField})
  }

  /** `GET /`: every user, in stored order, without the password; a failed query answers 500. */
  function ListUsers(users: seq<User>, findOk: bool): Result<seq<User>>
  {
    if !findOk then Fail(UsersFailed)
    else Ok(seq(|users|, k requires 0 <= k < |users| => WithoutPassword(users[k])))
  }

  /**
   * The listing has one entry per stored user, in order, with the same id
   * and every field except the password, which no entry carries.
   */
  lemma ListUsersHidesPasswords(users: seq<User>, findOk: bool)
    ensures var r := ListUsers(users, findOk);
      && (r.Ok? <==> findOk)
      && (r.Fail? ==> r.error == UsersFailed && Status(r.error) == 500)
      && (r.Ok? ==>
            && |r.value| == |users|
            && (forall k :: 0 <= k < |users| ==> r.value[k].id == users[k].id && PasswordField !in r.value[k].fields)
            && (forall k, f :: 0 <= k < |users| && f in users[k].fields && f != PasswordField ==>
                  f in r.value[k].fields && r.value[k].fields[f] == users[k].fields[f])
            && (forall k :: 0 <= k < |users| ==> r.value[k].fields.Keys <= users[k].fields.Keys))
  {
  }

  /** A hexadecimal digit in either case. */
  predicate IsHex(c: char)
  {
    '0' <= c <= '9' || 'a' <= c <= 'f' || 'A' <= c <= 'F'
  }

  /** `mongoose.Types.ObjectId.isValid` for a path parameter: 24 hexadecimal digits. */
  predicate IsValidObjectId(id: string)
  {
    |id| == 24 && forall i :: 0 <= i < |id| ==> IsHex(id[i])
  }

  /** The outcomes of the delete handler's three database calls. */
  datatype DeleteEnv = DeleteEnv(findOk: bool, messagesDeleted: bool, userDeleted: bool)

  datatype DeleteResponse = Deleted | DeleteFailed(error: ErrorKind)

  datatype DeleteResult = DeleteResult(response: DeleteResponse, db: Db)

  /**
   * `DELETE /:userId`: a malformed id answers 400 and an unknown user 404;
   * otherwise the user's messages are deleted, then the user. A failing
   * database call answers 500 and keeps what was already deleted.
   */
  function DeleteOutcome(db: Db, userId: string, env: DeleteEnv): DeleteResult
  {
    if !IsValidObjectId(userId) then DeleteResult(DeleteFailed(InvalidUserId), db)
    else if !env.findOk then DeleteResult(DeleteFailed(UserDeleteFailed), db)
    else if FindUser(db.users, userId).None? then DeleteResult(DeleteFailed(UserNotFound), db)
    else if !env.messagesDeleted then DeleteResult(DeleteFailed(UserDeleteFailed), db)
    else
      var db1 := db.(messages := WithoutUser(db.messages, userId));
      if !env.userDeleted then DeleteResult(DeleteFailed(UserDeleteFailed), db1)
      else DeleteResult(Deleted, db1.(users := RemoveUser(db1.users, userId)))
  }

  /** The handler run against the stores. */
  method DeleteUser(db: Database, userId: string, env: DeleteEnv) returns (response: DeleteResponse)
    modifies db
    ensures DeleteResult(response, db.Snapshot()) == DeleteOutcome(old(db.Snapshot()), userId, env)
  {
    if !IsValidObjectId(userId) {
      return DeleteFailed(InvalidUserId);
    }
    if !env.findOk {
      return DeleteFailed(UserDeleteFailed);
    }
    var userToDelete := FindUser(db.users, userId);
    if userToDelete.None? {
      return DeleteFailed(UserNotFound);
    }
    var deleted := db.DeleteMessagesOf(userId, env.messagesDeleted);
    if !deleted {
      return DeleteFailed(UserDeleteFailed);
    }
    deleted := db.DeleteUser(userId, env.userDeleted);
    response := if deleted then Deleted else DeleteFailed(UserDeleteFailed);
  }

  /** A malformed id answers 400 and an unknown user 404, and neither deletes anything. */
  lemma RejectedDeleteChangesNothing(db: Db, userId: string, env: DeleteEnv)
    ensures var r := DeleteOutcome(db, userId, env);
      && (!IsValidObjectId(userId) ==> r.response == DeleteFailed(InvalidUserId) && Status(r.response.error) == 400 && r.db == db)
      && (IsValidObjectId(userId) && env.findOk && !HasUser(db.users, userId) ==>
            r.response == DeleteFailed(UserNotFound) && Status(r.response.error) == 404 && r.db == db)
  {
  }

  /**
   * A delete succeeds exactly when the id is well formed, the user exists and
   * every database call succeeds. It then removes exactly the messages the
   * user sent or received and exactly the user's record, keeping every other
   * message and user as often as it was stored and in stored order.
   */
  lemma CascadeExact(db: Db, userId: string, env: DeleteEnv)
    ensures var r := DeleteOutcome(db, userId, env);
      && (r.response == Deleted <==>
            IsValidObjectId(userId) && env.findOk && HasUser(db.users, userId) && env.messagesDeleted && env.userDeleted)
      && (r.response == Deleted ==>
            && (forall m :: m in r.db.messages <==> m in db.messages && !Involves(m, userId))
            && (forall m :: multiset(r.db.messages)[m] == if Involves(m, userId) then 0 else multiset(db.messages)[m])
            && (forall a, b :: db.messages == a + b ==>
                  r.db.messages == WithoutUser(a, userId) + WithoutUser(b, userId))
            && (forall u :: u in r.db.users <==> u in db.users && u.id != userId)
            && (forall u :: multiset(r.db.users)[u] == if u.id == userId then 0 else multiset(db.users)[u])
            && r.db.fileRecords == db.fileRecords && r.db.objects == db.objects)
  {
    forall a, b | db.messages == a + b
      ensures WithoutUser(db.messages, userId) == WithoutUser(a, userId) + WithoutUser(b, userId)
    {
      WithoutUserKeepsOrder(a, b, userId);
    }
  }

  /**
   * Messages go before the user does: whenever a delete removed the user,
   * none of the messages left involves them. A delete whose last call fails
   * has removed the messages and kept the user.
   */
  lemma NoOrphanedMessages(db: Db, userId: string, env: DeleteEnv)
    ensures var r := DeleteOutcome(db, userId, env);
      && (HasUser(db.users, userId) && !HasUser(r.db.users, userId) ==>
            r.response == Deleted && forall m :: m in r.db.messages ==> !Involves(m, userId))
      && (r.db.messages != db.messages ==> r.db.messages == WithoutUser(db.messages, userId))
      && (r.response.DeleteFailed? ==> r.db.users == db.users)
  {
  }
}
